=== FILE: README.md ===
# Budget tracking over a spreadsheet, modelled in Dafny

The application tracks public funds through three stages:

- A **record** receives a transaction under a tracking number.
- An **obligation** commits funds to it under an ORS (Obligation Request and Status) number.
- **Disbursements** pay out against that ORS number.

All of its state lives in five sheets of one spreadsheet:

- the record log;
- the obligations sheet;
- the disbursement log;
- two summaries:
  - record vs obligation, with one status row per tracking number;
  - obligation vs disbursement, with a running total and balance per ORS number.

The server's HTTP handlers read and write those sheets.

This project models these handlers as pure functions from a store of five sheets to a new store and a response. It proves what they promise:

- **Balance calculator.** It collects every log row of an ORS number as `index + 2`, in ascending order. Its total is the sum of their column H plus the new amount, and its balance is the amount obligated minus that total.
- **Summary upsert.** A key found by first match gets only D and E patched; otherwise one row is appended.
- **Headline invariant.** Under sequential handling from an empty store, the first summary row of every ORS number shows in column D the sum of every amount disbursed against it.
- **Obligation handler.** It has guards for 404 and 500 and a whole-day difference. It patches exactly C, F and G. Repeating the identical request leaves the summary as the first left it; a repeat with another date overwrites the first date obligated and days to obligate.
- **Record-log handler.** It has an invalid-date guard and two row layouts.
- **Lookups.** A row written under a key not yet in its sheet is read back with the fields just written. Under a repeated key the first-match lookup returns the older row.
- **List and summary reads.** The list reads keep order and duplicates and drop empty first cells. The summary views give one object per row, in order, with every cell as a field. All four empty-sheet branches end in a 500 rather than the 204 they build (see Findings).
- **Form schemas** are issue lists over coerced values, with the form submitted exactly when the list is empty.
- **Decimal-entry filter.** The amount field's filter `^\d*\.?\d{0,2}$` is proved to accept exactly the language of that expression.

## Modules

- `sheets.dfy` (`Sheets`): the shared vocabulary.
  - Cells: text, an exact-integer JavaScript number or NaN, or a date written by the application.
  - Sheets whose data starts at sheet row 2.
  - The reads: a one-column read, whose `values` are absent when the column is blank; a first-match `findIndex`; a one-row read; a range read.
  - The writes: append, and a single-cell patch that grows a short row.
  - Responses.
- `disbursements.dfy` (`Disbursements`): `calculateBalanceAndTotalDisbursed` step by step, the log and summary rows, the upsert, and `POST /api/disbursements`.
- `obligations.dfy` (`Obligations`): `getDayDifference`, `POST /api/obligations`, and the two endpoints that read the obligations sheet.
- `recordlog.dfy` (`RecordLog`): `POST /api/record-log` and the two endpoints that read the record log.
- `summaries.dfy` (`Summaries`): the two summary views.
- `forms.dfy` (`Forms`): the three zod schemas and the amount input's keystroke filter.
- `workflow.dfy` (`Workflow`): handlers run in sequence. It holds the invariant that ties the summary to the log, the round trips between writers and readers, and a worked scenario.

Amounts are integers in centavos. Dates are integer milliseconds at local midnight, with `None` standing for JavaScript's Invalid Date.

The model follows the code as written:

- An ORS-number lookup that finds nothing answers with a message only and the default status 200.
- The obligation and disbursement handlers have no date-validity guard. An Invalid Date is written as the text `Invalid Date`, and it makes the days-to-obligate NaN (how the store receives that NaN is under Left out).
- A repeated obligation on the same tracking number re-patches C, F and G of the same summary row. It does not leave the status alone, and a later date overwrites the first date obligated and days to obligate.
- The running total sums every log row of the key, but the summary patch touches only the first summary row holding it. Later duplicates keep stale values.
- The disbursement form reports "Invalid day" for an out-of-range month, as its schema says.

## Model

| member | source | states |
|---|---|---|
| Sheets.FindIndex | app/api/disbursements/route.ts:174-177 | `findIndex` returns the least index whose entry is exactly the key, and `None` exactly when no entry is |
| Sheets.LookupIndex | app/api/obligations/route.ts:42-50 | a key-column read followed by `findIndex`, with an absent `values` and `-1` both not found: the first matching row, and not found exactly when no row's key cell equals the key |
| Sheets.ReadRange | app/api/record-vs-obligation/route.ts:15-22 | a range read is absent exactly when every row is blank within the width, otherwise it gives every row in order, cut to the width |
| Sheets.SetCell | app/api/obligations/route.ts:110-126 | writing one cell sets that cell, keeps every other cell, and pads a short row with empty cells |
| Sheets.LookupAfterAppend | app/api/disbursements/route.ts:174-197 | appending a row never moves an existing first match; the new row is found only when no earlier row matches |
| Sheets.LookupAfterPatch | app/api/disbursements/route.ts:199-218 | writing a cell outside the key column leaves every lookup on the key column unchanged |
| Sheets.FirstValues | app/api/record-log/get-tracking-numbers/route.ts:32 | the listed values are exactly the filled entries; there are never more than rows, and equally many exactly when no entry is empty |
| Sheets.FirstValuesConcat | app/api/record-log/get-tracking-numbers/route.ts:32 | listing distributes over concatenation, so the original order is kept |
| Sheets.FirstValuesKeepsDuplicates | app/api/obligations/get-ors-numbers/route.ts:32 | each value is listed as many times as the column holds it |
| Sheets.ListedValuesNonEmpty | app/api/obligations/get-ors-numbers/route.ts:32 | no listed item is an empty cell |
| Disbursements.MatchingRows | app/api/disbursements/route.ts:35-41 | the collected row numbers are exactly `i + 2` for every `i` whose key cell is the ORS number, in strictly ascending order |
| Disbursements.SumRanges | app/api/disbursements/route.ts:52-67 | the `reduce` over the fetched ranges is NaN exactly when some fetched value does not parse as a number; ranges without values are skipped |
| Disbursements.ScanSumsPriorDisbursed | app/api/disbursements/route.ts:35-67 | collecting the matching rows, fetching their column H and summing gives the row-by-row sum over the log of the amounts recorded against the key |
| Disbursements.NoRowsNothingDisbursed | app/api/disbursements/route.ts:27-33 | a log with no row for the key has disbursed nothing against it |
| Disbursements.CalculateBalanceAndTotal | app/api/disbursements/route.ts:4-80 | total is everything previously disbursed against the key plus the new amount; balance is amount obligated minus that total |
| Disbursements.BalancePlusTotal | app/api/disbursements/route.ts:69-74 | whenever the total is a number, balance plus total equals the amount obligated |
| Disbursements.LogRow | app/api/disbursements/route.ts:124-136 | the log row has 9 cells, the ORS number in column A, the amount disbursed in column H (the column the calculator reads back) and the computed balance in column I |
| Disbursements.SummaryRow | app/api/disbursements/route.ts:152-160 | the appended summary row has 5 cells, the ORS number in column A where the lookup finds it, the total in D and the balance in E |
| Disbursements.UpsertSummary | app/api/disbursements/route.ts:140-220 | without the key the summary gains exactly one row `[ors_no, payee, amount_obligated, total, balance]`; with it only D and E of the first matching row change, to total and balance: every other row and every existing cell is kept, a row shorter than five cells is padded to exactly five, and the padding before D is empty |
| Disbursements.PriorDisbursedOtherRow | app/api/disbursements/route.ts:36-41 | a log row for another key does not change the sum for this key |
| Disbursements.PriorDisbursedSameRow | app/api/disbursements/route.ts:124-136 | the appended log row adds its amount disbursed to the sum for its key |
| Disbursements.UpsertOtherKey | app/api/disbursements/route.ts:174-218 | the upsert for one ORS number leaves the first summary row of every other ORS number at the same index with the same total in D |
| Disbursements.UpsertFindsKey | app/api/disbursements/route.ts:174-218 | after the upsert the key's first summary row holds the new total in D and balance in E |
| Disbursements.Handle | app/api/disbursements/route.ts:108-244 | responds 200; appends the log row with the computed balance, upserts the summary, and leaves the other three sheets alone |
| Disbursements.HandleRecordsTotal | app/api/disbursements/route.ts:124-219 | after the handler, the log sums to the computed total for the key, and the key's first summary row shows that total and the balance |
| Obligations.DayDifference | app/api/obligations/route.ts:4-13 | the result `d` is the whole number of days with `d·86400000 <= abs(past - future) < (d+1)·86400000` |
| Obligations.DayDifferenceSymmetric | app/api/obligations/route.ts:9 | the day difference does not depend on argument order |
| Obligations.DayDifferenceSame | app/api/obligations/route.ts:9-11 | an instant is zero days from itself |
| Obligations.DayDifferenceWholeDays | app/api/obligations/route.ts:9-12 | two instants exactly `n` days apart are `n` days apart, either way round |
| Obligations.ObligationRow | app/api/obligations/route.ts:93-105 | the obligation row has 9 cells with the ORS number at 1, payee at 3, nature at 4 and amount obligated at 8 |
| Obligations.MarkObligated | app/api/obligations/route.ts:110-126 | only the matched row changes, and in it only C (date obligated), F (days to obligate) and G = "Obligated"; the row is padded to seven cells when shorter, and every padding cell other than C, F and G is empty |
| Obligations.Handle | app/api/obligations/route.ts:42-141 | an unknown tracking number gives 404 and no write; a missing date received gives 404 and an unparsable one 500, both before any write; otherwise 200, the obligation row appended and the first matching summary row marked obligated |
| Obligations.ObligateTwice | app/api/obligations/route.ts:42-126 | a repeated obligation succeeds again, leaves the summary as the first left it, and appends a second obligation row |
| Obligations.LookupByOrsNumber | app/api/obligations/get-row-from-ors-number/route.ts:16-52 | no match gives a message with no data and status 200; otherwise payee, nature and amount obligated are cells 3, 4 and 8 of the first matching row |
| Obligations.OrsNumbers | app/api/obligations/get-ors-numbers/route.ts:16-40 | the response the code builds: a blank column takes the 204 branch with an empty list; otherwise 200 and the non-empty first cells in order |
| Obligations.OrsNumbersAsWritten | app/api/obligations/get-ors-numbers/route.ts:22-46 | the response the client receives: a blank column ends in the 500 of the catch, since a 204 with a body makes the constructor throw; otherwise as above |
| RecordLog.RecordRow | app/api/record-log/route.ts:37-47 | the record row is date, tracking number, payee, nature, allotment, legal basis, amount, with the tracking number in column B |
| RecordLog.SummaryRow | app/api/record-log/route.ts:52-62 | the new summary row has the tracking number in A, empty C and F, and "Not Obligated" in G |
| RecordLog.RowsAgree | app/api/record-log/route.ts:37-62 | the record and summary rows carry the same tracking number, date and amount |
| RecordLog.Handle | app/api/record-log/route.ts:19-80 | an Invalid Date gives 400 and no write; otherwise 200 with one row appended to each of the record log and the record-vs-obligation summary |
| RecordLog.LookupByTrackingNumber | app/api/record-log/get-row-from-tracking-number/route.ts:16-56 | no match gives 404; otherwise cells 2 to 6 of the first matching row as payee, nature, allotment, legal basis and amount |
| RecordLog.TrackingNumbers | app/api/record-log/get-tracking-numbers/route.ts:16-40 | the response the code builds: a blank column takes the 204 branch with an empty list; otherwise 200 and the non-empty first cells in order |
| RecordLog.TrackingNumbersAsWritten | app/api/record-log/get-tracking-numbers/route.ts:22-46 | the response the client receives: a blank column ends in the 500 of the catch; otherwise as above |
| Summaries.View | app/api/record-vs-obligation/route.ts:20-44 | the response the code builds: the 204 branch with null data exactly when every row is blank; otherwise one object per row, in order, whose k-th field is keys[k] with the row's k-th cell |
| Summaries.ViewAsWritten | app/api/record-vs-obligation/route.ts:22-59 | the response the client receives: when every row is blank, the 500 of the catch with null data; otherwise the view above |
| Summaries.RecordVsObligation | app/api/record-vs-obligation/route.ts:15-52 | one object per summary row with fields tracking_no to status from cells 0 to 6, or 204 with null data |
| Summaries.ObligationVsDisbursement | app/api/obligation-vs-disbursement/route.ts:15-50 | one object per summary row with fields ors_number to balance from cells 0 to 4, or 204 with null data |
| Summaries.RecordVsObligationAsWritten | app/api/record-vs-obligation/route.ts:22-59 | a blank record-vs-obligation summary answers 500 with null data; otherwise the 7-field view |
| Summaries.ObligationVsDisbursementAsWritten | app/api/obligation-vs-disbursement/route.ts:22-59 | a blank obligation-vs-disbursement summary answers 500 with null data; otherwise the 5-field view |
| Forms.RecordLogIssues | app/form-schemas/record-log-schema.ts:3-25 | the record schema reports no issue exactly when month is 1–12, day 1–31, year 1900–2100, the tracking number has at least 11 characters, payee, nature, allotment class and legal basis are non-empty, and the amount is at least 0.01 |
| Forms.ObligationIssues | app/form-schemas/obligations-schema.ts:3-30 | the obligation schema reports no issue exactly when the tracking number is "TRK" and eight digits, the ORS number has at least 8 characters, the date fields are in range, the four texts are non-empty, and both amounts are at least 0.01 |
| Forms.DisbursementIssues | app/form-schemas/disbursements-schema.ts:3-27 | the disbursement schema reports no issue exactly when the ORS number is eight digits, payee and nature are non-empty, the date fields are in range, and amount obligated, tax and amount disbursed are at least 0 |
| Forms.PlaceholdersRejected | app/form-schemas/obligations-schema.ts:4-6 | the select boxes' placeholder texts fail the tracking-number and ORS-number rules |
| Forms.DisbursableOrsIsObligatable | app/form-schemas/disbursements-schema.ts:4 | every ORS number the disbursement form accepts meets the obligation form's length rule, but not conversely |
| Forms.DateChecksAreRangesOnly | app/form-schemas/record-log-schema.ts:4-15 | day 31 of February and a fractional month pass; out-of-range months, days and years fail |
| Forms.NegativeBalanceAdmitted | app/form-schemas/disbursements-schema.ts:3-27 | a disbursement larger than the amount obligated passes validation |
| Forms.ObligationPassesRecordRules | app/form-schemas/obligations-schema.ts:3-30 | values the obligation form accepts also pass the record form's rules |
| Forms.ZeroAmounts | app/form-schemas/disbursements-schema.ts:7-26 | zero fails as a recorded or obligated amount but passes as a disbursement's amounts and tax |
| Forms.CheckNumberUnconstrained | app/form-schemas/disbursements-schema.ts:10 | the check or ADA number never affects validity |
| Forms.MatchesDecimal | app/components/record-log-form.tsx:336-337 | `regex.test` is true exactly for strings of digits, an optional point and at most two further digits |
| Forms.ScanDecimalCorrect | app/components/record-log-form.tsx:336-337 | the longest-digit-run scanner accepts a string exactly when it is digits, an optional point and at most two further digits |
| Forms.OnAmountChange | app/components/record-log-form.tsx:331-341 | empty input clears the value; a matching entry is stored; any other keeps the stored value |
| Forms.AcceptedEntryShape | app/components/record-log-form.tsx:336 | an accepted entry holds only digits and at most one point, with at most two digits after it |
| Forms.FilterExamples | app/components/record-log-form.tsx:336 | ".", "12." and "12.34" are accepted; "12.345", "1.2.3", "-1" and "1e5" are not |
| Workflow.DisbursementKeepsTotals | app/api/disbursements/route.ts:35-218 | for every key, a disbursement keeps the first summary row's D equal to what the log records against the key |
| Workflow.ApplyKeepsTotals | app/api/disbursements/route.ts:35-218 | every handler keeps that agreement |
| Workflow.RunKeepsTotals | app/api/disbursements/route.ts:35-218 | any sequence of requests keeps that agreement |
| Workflow.ApplyAddsToLog | app/api/disbursements/route.ts:124-136 | one request adds its own amount disbursed, and only for its own ORS number, to the log's sum for a key |
| Workflow.LogSumsSubmissions | app/api/disbursements/route.ts:44-136 | from an empty store, the log's sum for a key is the sum of the amounts submitted against it |
| Workflow.SummaryRowPersists | app/api/disbursements/route.ts:174-218 | once a summary row for a key exists, no handler loses it |
| Workflow.DisbursedKeyIsListed | app/api/disbursements/route.ts:150-197 | every ORS number disbursed against has a summary row |
| Workflow.SummaryShowsSubmittedTotal | app/api/disbursements/route.ts:35-218 | after any requests from an empty store, the key's summary row shows in D the sum of every amount disbursed against it |
| Workflow.SummaryRowCountStable | app/api/disbursements/route.ts:199-218 | a disbursement for a key already in the summary adds no summary row |
| Workflow.StatusOnlyAdvances | app/api/record-log/route.ts:52-62 | no handler writes "Not Obligated" over an existing row: its status is kept or becomes "Obligated", and only new rows start "Not Obligated" |
| Workflow.RecordLookupRoundTrip | app/api/record-log/get-row-from-tracking-number/route.ts:16-56 | after recording a fresh tracking number its lookup returns exactly the payee, nature, allotment, legal basis and amount written |
| Workflow.ObligationLookupRoundTrip | app/api/obligations/get-row-from-ors-number/route.ts:16-52 | after obligating a fresh ORS number its lookup returns exactly the payee, nature and amount obligated written |
| Workflow.NewRecordReadsNotObligated | app/api/record-vs-obligation/route.ts:32-44 | a new record reads back as "Not Obligated" with empty date obligated and days to obligate |
| Workflow.DisbursementReadBack | app/api/obligation-vs-disbursement/route.ts:32-42 | after a disbursement, fields 3 and 4 of the key's summary object are the computed total and balance |
| Workflow.UpsertOneRow | app/api/disbursements/route.ts:199-218 | on a one-row summary holding the key, only D and E change |
| Workflow.FirstDisbursement | app/api/disbursements/route.ts:27-33 | the first disbursement on an empty log and summary opens a summary row with total = amount disbursed and balance = obligated − disbursed, and the log then sums to the amount disbursed |
| Workflow.TwoDisbursements | app/api/disbursements/route.ts:124-218 | two disbursements against one key on an empty log and summary: the first opens the row, the second patches it to the sum of both amounts and obligated minus that sum |
| Workflow.NextDisbursement | app/api/disbursements/route.ts:52-74 | on any store whose log sums to `total` for the key, a further disbursement makes the log sum `total + amount`, and the key's first summary row shows that total and obligated minus it |
| Workflow.ObligateAfterDays | app/api/obligations/route.ts:89-123 | on any store whose first matching summary row has a date received, obligating `n` whole days later succeeds and writes that date, `n` days to obligate and status "Obligated" into that row |
| Workflow.Scenario | app/api/disbursements/route.ts:124-218 | record 5000.00, obligate 3 days later, disburse 2000.00 then 1000.00: 3 days to obligate, then totals 2000.00/3000.00 and 3000.00/2000.00 |
| Workflow.EmptySheetsAnswer500 | app/api/obligations/get-ors-numbers/route.ts:22-46 | on an empty store all four list and view endpoints take their 204 branch, and as written each answers 500 |

## Left out

- The Google Sheets client, authentication and environment variables are left out. The store is five plain sequences of rows, and reads return cells exactly as written. The `USER_ENTERED` reinterpretation of written values (for example "00000001" turning into 1) is store behaviour and is not modelled.
- Writes are left out as separate events. The writes of one request are issued together with `Promise.all`; they are modelled as applied atomically and in order, so partial-write outcomes are not represented.
- Concurrent requests are left out. Requests are handled one after another, so the undercount race between two simultaneous disbursements is not represented.
- Transport and store failures are left out, and so are the 500 responses they cause: those from the outer `catch` blocks, and those from the calculator returning `null`. The outer `catch` is also reached in two other ways. The four list and view routes reach it on a blank sheet, which is modelled (see Findings). The other way is the next item.
- Malformed request bodies are left out. Every POST handler starts with `await request.json()`, which throws on a body that is not JSON, and the outer `catch` then answers 500. The model takes requests that are already parsed.
- Disbursements.ParseAmount: `parseFloat` of a fetched amount is modelled only for cells the application wrote as numbers. Text cells, including formatted numbers such as "1,000.00", parse to NaN rather than to their leading number.
- Obligations.ParseDate: `new Date` of the stored date received is modelled only for date cells the application wrote. Free-text dates typed into the sheet never parse, rather than following JavaScript's date parser.
- Sheets.ReadRange: the store trims each fetched row after its last non-empty cell and drops blank rows at the end of a range; the model keeps both as written. This shows in Summaries.View: a row ending in empty cells gives empty fields where the store would give none, and rows cleared by hand at the bottom of a summary give extra objects. The handlers never write a blank row or a summary row whose last cell is empty, so only hand edits reach these cases.
- Sheets.Append: the store appends below the last row holding a value, so it reuses cleared trailing rows; the model appends below every row. After a cleared trailing row, the row numbers of later appends differ by one. As above, only hand edits reach this case.
- Forms.RecordLogIssues: `.min(n)` on a string counts UTF-16 code units, while the model counts Unicode scalar values; a character outside the Basic Multilingual Plane counts once here and twice there.
- Forms.ObligationIssues: the same UTF-16 length difference applies to its `.min` rules.
- Forms.DisbursementIssues: the same UTF-16 length difference applies to its `.min` rules.
- Obligations.LookupByOrsNumber: the 404 for an empty fetched row is not reachable in the model. The row just found holds the key, so it is never blank. The same holds for the matching branch of RecordLog.LookupByTrackingNumber.
- Obligations.MarkObligated: the days to obligate after an Invalid Date are written as a NaN cell in F. In the program that NaN serialises to JSON `null`, and the batch update leaves a cell sent as `null` unchanged, so F keeps its old content: empty on a fresh row, and the earlier days to obligate when an obligation is repeated with an Invalid Date.
- Floating point is left out. Amounts are exact integer centavos, so `Number`, `parseFloat(...).toFixed(2)` on the obligation amounts, float rounding and NaN's JSON serialisation are not modelled.
- Date construction from day, month and year is left out. The handlers construct dates from those fields, and `toLocaleDateString("en-PH")` formats them. Both are abstracted: a request carries the millisecond timestamp, or `None` for an Invalid Date.
- zod's `coerce` is left out. The schemas are checked against already-coerced values, as exact reals.
- The React forms are left out, apart from the amount filter. That includes the on-blur `toFixed(2)` formatting, the autofill from lookups, and the identical decimal filters on the obligation and disbursement forms.
- The response `message` strings and the raw write results echoed in 200 bodies are left out.

## Findings

| source | as written | input that shows it | evidently intended | confidence | as-written member | corrected member |
|---|---|---|---|---|---|---|
| app/api/obligations/get-ors-numbers/route.ts:24-30 | the empty branch passes a JSON body with status 204; the `Response` constructor throws a `TypeError` for a body with a null-body status, and the catch answers 500 | an obligations sheet with nothing in column B, such as the empty store | answer 204 when there is nothing to list | not executed | Obligations.OrsNumbersAsWritten (shown by Workflow.EmptySheetsAnswer500) | Obligations.OrsNumbers |
| app/api/record-log/get-tracking-numbers/route.ts:24-30 | the same 204 with a body, hence the same 500 from the catch | a record log with nothing in column B, such as the empty store | answer 204 when there is nothing to list | not executed | RecordLog.TrackingNumbersAsWritten (shown by Workflow.EmptySheetsAnswer500) | RecordLog.TrackingNumbers |
| app/api/record-vs-obligation/route.ts:23-29 | `NextResponse.json` with `data: null` and status 204 throws in the same way, and the catch answers 500 | an empty record-vs-obligation summary, such as the empty store | answer 204 when the summary is empty | not executed | Summaries.RecordVsObligationAsWritten (shown by Workflow.EmptySheetsAnswer500) | Summaries.RecordVsObligation |
| app/api/obligation-vs-disbursement/route.ts:23-29 | the same 204 with a JSON body, hence 500 from the catch | an empty obligation-vs-disbursement summary, such as the empty store | answer 204 when the summary is empty | not executed | Summaries.ObligationVsDisbursementAsWritten (shown by Workflow.EmptySheetsAnswer500) | Summaries.ObligationVsDisbursement |

=== FILE: disbursements.dfy ===
/** Recording a disbursement against an obligation: the balance calculator,
    the disbursement log row, and the append-or-patch of the
    obligation-vs-disbursement summary. */
module Disbursements {
  import opened Sheets

  /** Column A of both the log and the summary holds the ORS number. */
  const KeyColumn: nat := 0
  /** Column H of the log holds the amount disbursed. */
  const AmountColumn: nat := 7
  /** Columns D and E of the summary hold the running total and the balance. */
  const TotalColumn: nat := 3
  const BalanceColumn: nat := 4

  datatype Request = Request(
    orsNo: string,
    payee: string,
    nature: string,
    amountObligated: int,  // centavos
    checkOrAdaNo: string,
    date: Option<int>,     // local midnight of year-month-day, None for an Invalid Date
    tax: int,
    amountDisbursed: int
  )

  datatype Totals = Totals(balance: Num, totalDisbursed: Num)

  // ---------------------------------------------------------------------------
  // The balance calculator, step by step as the handler performs it

  /** Sheet row `n` is a log row whose key cell is exactly `key`. */
  predicate IsMatchRow(col: seq<Option<Cell>>, key: string, n: int)
  {
    2 <= n < |col| + 2 && Holds(col[n - 2], key)
  }

  /** `rows` lists exactly the sheet rows whose key cell is `key`, in ascending order. */
  ghost predicate AllMatchRows(col: seq<Option<Cell>>, key: string, rows: seq<nat>)
  {
    && (forall k :: 0 <= k < |rows| ==> IsMatchRow(col, key, rows[k]))
    && (forall i :: 0 <= i < |col| && Holds(col[i], key) ==> RowNumber(i) in rows)
    && (forall a, b :: 0 <= a < b < |rows| ==> rows[a] < rows[b])
  }

  lemma MatchRowsExtend(col: seq<Option<Cell>>, key: string, rows: seq<nat>)
    requires |col| > 0 && AllMatchRows(col[..|col| - 1], key, rows)
    ensures AllMatchRows(col, key, rows + if Holds(col[|col| - 1], key) then [RowNumber(|col| - 1)] else [])
  {
    var prefix := col[..|col| - 1];
    forall k | 0 <= k < |rows|
      ensures IsMatchRow(col, key, rows[k])
    {
      assert IsMatchRow(prefix, key, rows[k]);
      assert prefix[rows[k] - 2] == col[rows[k] - 2];
    }
    forall i | 0 <= i < |prefix| && Holds(col[i], key)
      ensures RowNumber(i) in rows
    {
      assert Holds(prefix[i], key);
    }
  }

  /** The loop collecting `index + 2` for every entry of the key column equal to `key`. */
  function MatchingRows(col: seq<Option<Cell>>, key: string): (rows: seq<nat>)
    ensures AllMatchRows(col, key, rows)
  {
    if |col| == 0 then []
    else
      var rows := MatchingRows(col[..|col| - 1], key);
      MatchRowsExtend(col, key, rows);
      rows + if Holds(col[|col| - 1], key) then [RowNumber(|col| - 1)] else []
  }

  /** The value range a `batchGet` of `H{n}` returns: nothing for an empty or absent cell. */
  function AmountCell(log: Sheet, n: nat): Option<Cell>
  {
    if 2 <= n < |log| + 2 then CellAt(log[n - 2], AmountColumn) else None
  }

  /** The `batchGet` of column H at each of the given sheet rows. */
  function ReadAmounts(log: Sheet, rows: seq<nat>): (vals: seq<Option<Cell>>)
    ensures |vals| == |rows|
  {
    seq(|rows|, k requires 0 <= k < |rows| => AmountCell(log, rows[k]))
  }

  /** `parseFloat` of a fetched amount; only a number cell parses. */
  function ParseAmount(c: Cell): Num
  {
    match c
    case Number(n) => n
    case _ => NaN
  }

  /** The `reduce` over the fetched value ranges, from 0, skipping ranges
      without values: one fetched value that does not parse poisons the sum. */
  function SumRanges(vals: seq<Option<Cell>>): (total: Num)
    ensures total.NaN? <==> exists k :: 0 <= k < |vals| && vals[k].Some? && ParseAmount(vals[k].value).NaN?
  {
    if |vals| == 0 then Finite(0)
    else
      var total := SumRanges(vals[..|vals| - 1]);
      assert forall k :: 0 <= k < |vals| - 1 ==> vals[..|vals| - 1][k] == vals[k];
      match vals[|vals| - 1]
      case None => total
      case Some(c) => Add(total, ParseAmount(c))
  }

  /** Reference definition: everything disbursed so far against `key`, row by row over the log. */
  function PriorDisbursed(log: Sheet, key: string): Num
  {
    if |log| == 0 then Finite(0)
    else
      var prior := PriorDisbursed(log[..|log| - 1], key);
      var last := log[|log| - 1];
      if !Holds(CellAt(last, KeyColumn), key) then prior
      else
        match CellAt(last, AmountColumn)
        case None => prior
        case Some(c) => Add(prior, ParseAmount(c))
  }

  lemma ReadAmountsConcat(log: Sheet, a: seq<nat>, b: seq<nat>)
    ensures ReadAmounts(log, a + b) == ReadAmounts(log, a) + ReadAmounts(log, b)
  {
  }

  /** Rows above the last one read the same from the log with or without its last row. */
  lemma ReadAmountsDropLast(log: Sheet, rows: seq<nat>)
    requires |log| > 0
    requires forall k :: 0 <= k < |rows| ==> rows[k] < |log| + 1
    ensures ReadAmounts(log, rows) == ReadAmounts(log[..|log| - 1], rows)
  {
    var pre := log[..|log| - 1];
    forall k | 0 <= k < |rows|
      ensures AmountCell(log, rows[k]) == AmountCell(pre, rows[k])
    {
    }
  }

  lemma SumRangesSnoc(vals: seq<Option<Cell>>, x: Option<Cell>)
    ensures SumRanges(vals + [x]) == match x case None => SumRanges(vals) case Some(c) => Add(SumRanges(vals), ParseAmount(c))
  {
    assert (vals + [x])[..|vals|] == vals;
  }

  /** Scanning one more log row adds that row's number when it matches. */
  lemma MatchingRowsSnoc(log: Sheet, key: string)
    requires |log| > 0
    ensures var pre := log[..|log| - 1];
      MatchingRows(Column(log, KeyColumn), key)
        == MatchingRows(Column(pre, KeyColumn), key)
           + if Holds(CellAt(log[|log| - 1], KeyColumn), key) then [RowNumber(|pre|)] else []
  {
    var col := Column(log, KeyColumn);
    assert col[..|col| - 1] == Column(log[..|log| - 1], KeyColumn);
  }

  /** The rows matched above the last row read the same with or without the last row. */
  lemma ScanPrefix(log: Sheet, key: string)
    requires |log| > 0
    ensures var pre := log[..|log| - 1];
      ReadAmounts(log, MatchingRows(Column(pre, KeyColumn), key))
        == ReadAmounts(pre, MatchingRows(Column(pre, KeyColumn), key))
  {
    var pre := log[..|log| - 1];
    var rows := MatchingRows(Column(pre, KeyColumn), key);
    assert forall k :: 0 <= k < |rows| ==> IsMatchRow(Column(pre, KeyColumn), key, rows[k]);
    ReadAmountsDropLast(log, rows);
  }

  /** The log's reference sum, unfolded at its last row. */
  lemma PriorDisbursedSnoc(log: Sheet, key: string)
    requires |log| > 0
    ensures var last := log[|log| - 1];
      PriorDisbursed(log, key) ==
        if !Holds(CellAt(last, KeyColumn), key) then PriorDisbursed(log[..|log| - 1], key)
        else match CellAt(last, AmountColumn)
             case None => PriorDisbursed(log[..|log| - 1], key)
             case Some(c) => Add(PriorDisbursed(log[..|log| - 1], key), ParseAmount(c))
  {
  }

  /** The fetched values for the whole log are those for the rows above the
      last, followed by the last row's column H when it matches. */
  lemma ScanSnoc(log: Sheet, key: string)
    requires |log| > 0
    ensures var pre := log[..|log| - 1];
      var last := log[|log| - 1];
      var before := ReadAmounts(pre, MatchingRows(Column(pre, KeyColumn), key));
      ReadAmounts(log, MatchingRows(Column(log, KeyColumn), key))
        == if Holds(CellAt(last, KeyColumn), key) then before + [CellAt(last, AmountColumn)] else before
  {
    var pre := log[..|log| - 1];
    var last := log[|log| - 1];
    var rows := MatchingRows(Column(pre, KeyColumn), key);
    MatchingRowsSnoc(log, key);
    ScanPrefix(log, key);
    if Holds(CellAt(last, KeyColumn), key) {
      var extra: seq<nat> := [RowNumber(|pre|)];
      ReadAmountsConcat(log, rows, extra);
      assert ReadAmounts(log, extra) == [CellAt(last, AmountColumn)];
    } else {
      assert rows + [] == rows;
    }
  }

  /** Collecting the matching rows, fetching their column H and summing the
      fetched values gives the reference sum over the log. */
  lemma {:induction false} ScanSumsPriorDisbursed(log: Sheet, key: string)
    ensures SumRanges(ReadAmounts(log, MatchingRows(Column(log, KeyColumn), key))) == PriorDisbursed(log, key)
    decreases |log|
  {
    if |log| > 0 {
      var pre := log[..|log| - 1];
      var last := log[|log| - 1];
      var before := ReadAmounts(pre, MatchingRows(Column(pre, KeyColumn), key));
      var vals := ReadAmounts(log, MatchingRows(Column(log, KeyColumn), key));
      assert SumRanges(before) == PriorDisbursed(pre, key) by {
        ScanSumsPriorDisbursed(pre, key);
      }
      assert vals == if Holds(CellAt(last, KeyColumn), key) then before + [CellAt(last, AmountColumn)] else before by {
        ScanSnoc(log, key);
      }
      PriorDisbursedSnoc(log, key);
      if Holds(CellAt(last, KeyColumn), key) {
        SumRangesSnoc(before, CellAt(last, AmountColumn));
      }
    }
  }

  /** An empty log, or one with no row for `key`, has disbursed nothing against it. */
  lemma {:induction false} NoRowsNothingDisbursed(log: Sheet, key: string)
    requires forall i :: 0 <= i < |log| ==> !Holds(CellAt(log[i], KeyColumn), key)
    ensures PriorDisbursed(log, key) == Finite(0)
    decreases |log|
  {
    if |log| > 0 {
      NoRowsNothingDisbursed(log[..|log| - 1], key);
    }
  }

  /** `calculateBalanceAndTotalDisbursed`: the running total after this
      disbursement, and what remains of the obligated amount. */
  function CalculateBalanceAndTotal(log: Sheet, key: string, obligated: int, disbursed: int): (t: Totals)
    ensures t.totalDisbursed == Add(PriorDisbursed(log, key), Finite(disbursed))
    ensures t.balance == Sub(Finite(obligated), t.totalDisbursed)
  {
    match ReadColumn(log, KeyColumn)
    case None =>
      NoRowsNothingDisbursed(log, key);
      Totals(Finite(obligated - disbursed), Finite(disbursed))
    case Some(col) =>
      var prior := SumRanges(ReadAmounts(log, MatchingRows(col, key)));
      ScanSumsPriorDisbursed(log, key);
      Totals(Sub(Finite(obligated), Add(prior, Finite(disbursed))), Add(prior, Finite(disbursed)))
  }

  /** With a log whose key column is empty, the total is the amount being
      disbursed and the balance is what is left of the obligated amount. */
  lemma EmptyLogTotals(log: Sheet, key: string, obligated: int, disbursed: int)
    requires ReadColumn(log, KeyColumn).None?
    ensures CalculateBalanceAndTotal(log, key, obligated, disbursed)
      == Totals(Finite(obligated - disbursed), Finite(disbursed))
  {
    NoRowsNothingDisbursed(log, key);
  }

  /** Whenever the running total is a number, balance and total add up to the obligated amount. */
  lemma BalancePlusTotal(log: Sheet, key: string, obligated: int, disbursed: int)
    requires CalculateBalanceAndTotal(log, key, obligated, disbursed).totalDisbursed.Finite?
    ensures var t := CalculateBalanceAndTotal(log, key, obligated, disbursed);
      t.balance.Finite? && t.balance.v + t.totalDisbursed.v == obligated
  {
  }

  // ---------------------------------------------------------------------------
  // Rows written

  /** The disbursement log row, columns A to I. */
  function LogRow(r: Request, balance: Num): (row: Row)
    ensures |row| == 9
    ensures CellAt(row, KeyColumn) == if r.orsNo == "" then None else Some(Text(r.orsNo))
    ensures row[AmountColumn] == Number(Finite(r.amountDisbursed))
    ensures row[8] == Number(balance)
  {
    [Text(r.orsNo), Text(r.payee), Text(r.nature), Number(Finite(r.amountObligated)),
     Text(r.checkOrAdaNo), DateCell(r.date), Number(Finite(r.tax)),
     Number(Finite(r.amountDisbursed)), Number(balance)]
  }

  /** The summary row, columns A to E. */
  function SummaryRow(r: Request, t: Totals): (row: Row)
    ensures |row| == 5
    ensures CellAt(row, KeyColumn) == if r.orsNo == "" then None else Some(Text(r.orsNo))
    ensures row[TotalColumn] == Number(t.totalDisbursed) && row[BalanceColumn] == Number(t.balance)
  {
    [Text(r.orsNo), Text(r.payee), Number(Finite(r.amountObligated)),
     Number(t.totalDisbursed), Number(t.balance)]
  }

  /** The summary side effect: append a full row when the key is absent from
      column A, otherwise write only D and E of the first row holding it. */
  function UpsertSummary(summary: Sheet, r: Request, t: Totals): (s: Sheet)
    ensures LookupIndex(summary, KeyColumn, r.orsNo).None? ==> s == summary + [SummaryRow(r, t)]
    ensures LookupIndex(summary, KeyColumn, r.orsNo).Some? ==>
      var i := LookupIndex(summary, KeyColumn, r.orsNo).value;
      && |s| == |summary|
      && (forall j :: 0 <= j < |summary| && j != i ==> s[j] == summary[j])
      && CellAt(s[i], TotalColumn) == Some(Number(t.totalDisbursed))
      && CellAt(s[i], BalanceColumn) == Some(Number(t.balance))
      && |s[i]| == (if |summary[i]| <= BalanceColumn then BalanceColumn + 1 else |summary[i]|)
      && (forall c :: |summary[i]| <= c < TotalColumn ==> s[i][c] == Empty)
      && (forall c :: 0 <= c < |summary[i]| && c != TotalColumn && c != BalanceColumn ==> s[i][c] == summary[i][c])
  {
    match ReadColumn(summary, KeyColumn)
    case None => Append(summary, SummaryRow(r, t))
    case Some(col) =>
      match FindIndex(col, r.orsNo)
      case None => Append(summary, SummaryRow(r, t))
      case Some(i) =>
        Patch(Patch(summary, i, TotalColumn, Number(t.totalDisbursed)), i, BalanceColumn, Number(t.balance))
  }

  // ---------------------------------------------------------------------------
  // The handler

  /** POST /api/disbursements: compute the totals, append the log row and upsert the summary. */
  function Handle(s: Store, r: Request): (out: Outcome)
    ensures out.response == Response(Ok, MessageOnly)
    ensures var t := CalculateBalanceAndTotal(s.disbursements, r.orsNo, r.amountObligated, r.amountDisbursed);
      && out.store.disbursements == s.disbursements + [LogRow(r, t.balance)]
      && out.store.obligationVsDisbursement == UpsertSummary(s.obligationVsDisbursement, r, t)
    ensures out.store.recordLog == s.recordLog
    ensures out.store.recordVsObligation == s.recordVsObligation
    ensures out.store.obligations == s.obligations
  {
    var t := CalculateBalanceAndTotal(s.disbursements, r.orsNo, r.amountObligated, r.amountDisbursed);
    var store := s.(disbursements := Append(s.disbursements, LogRow(r, t.balance)),
                    obligationVsDisbursement := UpsertSummary(s.obligationVsDisbursement, r, t));
    Outcome(store, Response(Ok, MessageOnly))
  }

  /** A log row for another key leaves the sum for `key` as it was. */
  lemma PriorDisbursedOtherRow(log: Sheet, row: Row, key: string)
    requires !Holds(CellAt(row, KeyColumn), key)
    ensures PriorDisbursed(log + [row], key) == PriorDisbursed(log, key)
  {
    assert (log + [row])[..|log|] == log;
  }

  /** A log row for `key` adds its column H to the sum for `key`. */
  lemma PriorDisbursedSameRow(log: Sheet, r: Request, balance: Num)
    requires r.orsNo != ""
    ensures PriorDisbursed(log + [LogRow(r, balance)], r.orsNo)
      == Add(PriorDisbursed(log, r.orsNo), Finite(r.amountDisbursed))
  {
    assert (log + [LogRow(r, balance)])[..|log|] == log;
  }

  /** After the upsert, the first summary row for the key holds the new total and balance. */
  lemma UpsertFindsKey(summary: Sheet, r: Request, t: Totals)
    requires r.orsNo != ""
    ensures var s := UpsertSummary(summary, r, t);
      var i := LookupIndex(s, KeyColumn, r.orsNo);
      && i.Some?
      && CellAt(s[i.value], TotalColumn) == Some(Number(t.totalDisbursed))
      && CellAt(s[i.value], BalanceColumn) == Some(Number(t.balance))
  {
    var summary' := UpsertSummary(summary, r, t);
    if LookupIndex(summary, KeyColumn, r.orsNo).None? {
      LookupAfterAppend(summary, SummaryRow(r, t), KeyColumn, r.orsNo);
    } else {
      var i := LookupIndex(summary, KeyColumn, r.orsNo).value;
      var p1 := Patch(summary, i, TotalColumn, Number(t.totalDisbursed));
      assert summary' == Patch(p1, i, BalanceColumn, Number(t.balance));
      LookupAfterPatch(summary, i, TotalColumn, Number(t.totalDisbursed), KeyColumn, r.orsNo);
      LookupAfterPatch(p1, i, BalanceColumn, Number(t.balance), KeyColumn, r.orsNo);
    }
  }

  /** The upsert for one key neither moves nor rewrites the total of the
      first summary row for any other key. */
  lemma UpsertOtherKey(summary: Sheet, r: Request, t: Totals, key: string)
    requires key != r.orsNo
    ensures var s := UpsertSummary(summary, r, t);
      var j := LookupIndex(summary, KeyColumn, key);
      && LookupIndex(s, KeyColumn, key) == j
      && (j.Some? ==> CellAt(s[j.value], TotalColumn) == CellAt(summary[j.value], TotalColumn))
  {
    var summary' := UpsertSummary(summary, r, t);
    match LookupIndex(summary, KeyColumn, r.orsNo)
    case None =>
      LookupAfterAppend(summary, SummaryRow(r, t), KeyColumn, key);
      assert !Holds(CellAt(SummaryRow(r, t), KeyColumn), key);
    case Some(i) =>
      var p1 := Patch(summary, i, TotalColumn, Number(t.totalDisbursed));
      assert summary' == Patch(p1, i, BalanceColumn, Number(t.balance));
      LookupAfterPatch(summary, i, TotalColumn, Number(t.totalDisbursed), KeyColumn, key);
      LookupAfterPatch(p1, i, BalanceColumn, Number(t.balance), KeyColumn, key);
  }

  /** What the handler leaves behind for the next one: the log's reference
      sum for the key is now the total it computed, and the first summary row
      for the key carries that total and the balance. */
  lemma HandleRecordsTotal(s: Store, r: Request)
    requires r.orsNo != ""
    ensures var out := Handle(s, r);
      var t := CalculateBalanceAndTotal(s.disbursements, r.orsNo, r.amountObligated, r.amountDisbursed);
      var i := LookupIndex(out.store.obligationVsDisbursement, KeyColumn, r.orsNo);
      && PriorDisbursed(out.store.disbursements, r.orsNo) == t.totalDisbursed
      && i.Some?
      && CellAt(out.store.obligationVsDisbursement[i.value], TotalColumn) == Some(Number(t.totalDisbursed))
      && CellAt(out.store.obligationVsDisbursement[i.value], BalanceColumn) == Some(Number(t.balance))
  {
    var t := CalculateBalanceAndTotal(s.disbursements, r.orsNo, r.amountObligated, r.amountDisbursed);
    PriorDisbursedSameRow(s.disbursements, r, t.balance);
    UpsertFindsKey(s.obligationVsDisbursement, r, t);
  }
}

=== FILE: forms.dfy ===
/** The client-side validation of the three entry forms, over values as the
    schema library hands them over after coercion: text fields as strings,
    numeric fields as exact reals.  Also the keystroke filter of the amount
    input. */
module Forms {
  import opened Sheets

  predicate IsDigit(ch: char)
  {
    '0' <= ch <= '9'
  }

  predicate AllDigits(s: string)
  {
    forall i :: 0 <= i < |s| ==> IsDigit(s[i])
  }

  /** The day, month and year checks every form shares: ranges only, nothing
      ties the day to the month, and whole numbers are not required. */
  predicate DateInRange(month: real, day: real, year: real)
  {
    && 1.0 <= month <= 12.0
    && 1.0 <= day <= 31.0
    && 1900.0 <= year <= 2100.0
  }

  /** One validation issue as the schema reports it: the field and its message. */
  datatype Issue = Issue(path: string, message: string)

  /** One rule of a field: no issue when it holds, its message otherwise. */
  function Check(holds: bool, path: string, message: string): seq<Issue>
  {
    if holds then [] else [Issue(path, message)]
  }

  /** `.min(lo, message).max(hi, message)` on a coerced number. */
  function Bounds(x: real, lo: real, hi: real, path: string, message: string): seq<Issue>
  {
    Check(lo <= x, path, message) + Check(x <= hi, path, message)
  }

  // ---------------------------------------------------------------------------
  // Record log

  datatype RecordLogForm = RecordLogForm(
    month: real, day: real, year: real,
    trackingNumber: string,
    payee: string, nature: string, allotment: string, legalBasis: string,
    amount: real
  )

  /** Every rule of the record form holds. */
  predicate RecordLogValid(f: RecordLogForm)
  {
    && DateInRange(f.month, f.day, f.year)
    && |f.trackingNumber| >= 11
    && |f.payee| >= 1 && |f.nature| >= 1 && |f.allotment| >= 1 && |f.legalBasis| >= 1
    && f.amount >= 0.01
  }

  /** The issues `recordLogFormSchema` reports, field by field in schema
      order; the form is submitted exactly when there are none. */
  function RecordLogIssues(f: RecordLogForm): (issues: seq<Issue>)
    ensures issues == [] <==> RecordLogValid(f)
  {
    Bounds(f.month, 1.0, 12.0, "month", "Invalid month")
    + Bounds(f.day, 1.0, 31.0, "day", "Invalid day")
    + Bounds(f.year, 1900.0, 2100.0, "year", "Invalid year")
    + Check(|f.trackingNumber| >= 11, "tracking_number", "Tracking Number must be at least 11 characters")
    + Check(|f.payee| >= 1, "payee", "Payee is required")
    + Check(|f.nature| >= 1, "nature_of_transaction", "Nature of Transaction is required")
    + Check(|f.allotment| >= 1, "allotment_class", "Allotment Class is required")
    + Check(|f.legalBasis| >= 1, "legal_basis", "Legal Basis is required")
    + Check(f.amount >= 0.01, "amount", "Amount must be a positive number")
  }

  // ---------------------------------------------------------------------------
  // Obligation

  datatype ObligationForm = ObligationForm(
    trackingNumber: string,
    orsNo: string,
    month: real, day: real, year: real,
    payee: string, nature: string, allotment: string, legalBasis: string,
    amount: real,
    amountObligated: real
  )

  /** `^TRK\d{8}$` */
  predicate TrackingNumberFormat(s: string)
  {
    |s| == 11 && s[..3] == "TRK" && AllDigits(s[3..])
  }

  /** Every rule of the obligation form holds. */
  predicate ObligationValid(f: ObligationForm)
  {
    && TrackingNumberFormat(f.trackingNumber)
    && |f.orsNo| >= 8
    && DateInRange(f.month, f.day, f.year)
    && |f.payee| >= 1 && |f.nature| >= 1 && |f.allotment| >= 1 && |f.legalBasis| >= 1
    && f.amount >= 0.01
    && f.amountObligated >= 0.01
  }

  /** The issues `obligationFormSchema` reports, field by field in schema
      order; the form is submitted exactly when there are none. */
  function ObligationIssues(f: ObligationForm): (issues: seq<Issue>)
    ensures issues == [] <==> ObligationValid(f)
  {
    Check(TrackingNumberFormat(f.trackingNumber), "tracking_number", "Please select a tracking number")
    + Check(|f.orsNo| >= 8, "ors_no", "ORS Number must be at least 8 characters")
    + Bounds(f.month, 1.0, 12.0, "month", "Invalid month")
    + Bounds(f.day, 1.0, 31.0, "day", "Invalid day")
    + Bounds(f.year, 1900.0, 2100.0, "year", "Invalid year")
    + Check(|f.payee| >= 1, "payee", "Payee is required")
    + Check(|f.nature| >= 1, "nature_of_transaction", "Nature of Transaction is required")
    + Check(|f.allotment| >= 1, "allotment_class", "Allotment Class is required")
    + Check(|f.legalBasis| >= 1, "legal_basis", "Legal Basis is required")
    + Check(f.amount >= 0.01, "amount", "Amount must be a positive number")
    + Check(f.amountObligated >= 0.01, "amount_obligated", "Amount Obligated must be a positive number")
  }

  // ---------------------------------------------------------------------------
  // Disbursement

  datatype DisbursementForm = DisbursementForm(
    orsNo: string,
    payee: string, nature: string,
    amountObligated: real,
    checkOrAdaNo: string,
    day: real, month: real, year: real,
    tax: real,
    amountDisbursed: real
  )

  /** `^\d{8}$` */
  predicate OrsNumberFormat(s: string)
  {
    |s| == 8 && AllDigits(s)
  }

  /** Every rule of the disbursement form holds; the check or ADA number has none. */
  predicate DisbursementValid(f: DisbursementForm)
  {
    && OrsNumberFormat(f.orsNo)
    && |f.payee| >= 1 && |f.nature| >= 1
    && f.amountObligated >= 0.0
    && DateInRange(f.month, f.day, f.year)
    && f.tax >= 0.0
    && f.amountDisbursed >= 0.0
  }

  /** The issues `disbursementsFormSchema` reports, field by field in schema
      order; the form is submitted exactly when there are none.  The month's
      bounds report "Invalid day", as the schema has it. */
  function DisbursementIssues(f: DisbursementForm): (issues: seq<Issue>)
    ensures issues == [] <==> DisbursementValid(f)
  {
    Check(OrsNumberFormat(f.orsNo), "ors_no", "Please select an ORS number")
    + Check(|f.payee| >= 1, "payee", "Payee is required")
    + Check(|f.nature| >= 1, "nature_of_transaction", "Nature of Transaction is required")
    + Check(f.amountObligated >= 0.0, "amount_obligated", "Amount Obligated must be a positive number")
    + Bounds(f.day, 1.0, 31.0, "day", "Invalid day")
    + Bounds(f.month, 1.0, 12.0, "month", "Invalid day")
    + Bounds(f.year, 1900.0, 2100.0, "year", "Invalid year")
    + Check(f.tax >= 0.0, "tax", "Tax must be a positive number")
    + Check(f.amountDisbursed >= 0.0, "amount_disbursed", "Amount Disbursed must be a positive number")
  }

  // ---------------------------------------------------------------------------
  // What the schemas admit and refuse

  /** The select boxes' placeholder entries never pass. */
  lemma PlaceholdersRejected()
    ensures !TrackingNumberFormat("-- Select Tracking Number --")
    ensures !OrsNumberFormat("-- Select ORS Number --")
  {
  }

  /** Every ORS number the disbursement form accepts is long enough for the
      obligation form, but not the other way round. */
  lemma DisbursableOrsIsObligatable(s: string)
    ensures OrsNumberFormat(s) ==> |s| >= 8
    ensures |"ORS-0001"| >= 8 && !OrsNumberFormat("ORS-0001")
    ensures |"000000001"| >= 8 && !OrsNumberFormat("000000001")
  {
    assert !IsDigit("ORS-0001"[0]);
  }

  /** Day 31 passes in February, and a fractional month passes too. */
  lemma DateChecksAreRangesOnly()
    ensures DateInRange(2.0, 31.0, 2024.0)
    ensures DateInRange(2.5, 1.0, 2024.0)
    ensures !DateInRange(13.0, 1.0, 2024.0) && !DateInRange(1.0, 0.0, 2024.0) && !DateInRange(1.0, 1.0, 1899.0)
  {
  }

  /** Zero amounts and a disbursement larger than the obligation both pass:
      the schema has no rule relating the two, so a balance can go negative. */
  lemma NegativeBalanceAdmitted()
    ensures var f := DisbursementForm("00000001", "Payee", "Supplies", 1000.0, "", 1.0, 1.0, 2024.0, 0.0, 5000.0);
      DisbursementValid(f) && f.amountDisbursed > f.amountObligated
  {
    assert OrsNumberFormat("00000001") by {
      assert forall i :: 0 <= i < 8 ==> "00000001"[i] == '0' || "00000001"[i] == '1';
    }
  }

  /** The values an obligation form accepts for the transaction it names
      would also pass the record form: same date ranges, same text rules,
      same amount floor, and a stricter tracking number rule. */
  lemma ObligationPassesRecordRules(f: ObligationForm)
    requires ObligationValid(f)
    ensures RecordLogValid(RecordLogForm(f.month, f.day, f.year, f.trackingNumber,
                                         f.payee, f.nature, f.allotment, f.legalBasis, f.amount))
  {
  }

  /** Zero is refused as a recorded or obligated amount but accepted as a
      disbursed amount, a tax or an amount obligated on the disbursement form. */
  lemma ZeroAmounts(r: RecordLogForm, o: ObligationForm, d: DisbursementForm)
    ensures !RecordLogValid(r.(amount := 0.0))
    ensures !ObligationValid(o.(amount := 0.0)) && !ObligationValid(o.(amountObligated := 0.0))
    ensures DisbursementValid(d) ==> DisbursementValid(d.(amountObligated := 0.0, tax := 0.0, amountDisbursed := 0.0))
  {
  }

  /** The check or ADA number is never looked at, even when empty. */
  lemma CheckNumberUnconstrained(f: DisbursementForm, other: string)
    ensures DisbursementValid(f) <==> DisbursementValid(f.(checkOrAdaNo := other))
  {
  }

  // ---------------------------------------------------------------------------
  // The amount input's keystroke filter

  /** Reference reading of `^\d*\.?\d{0,2}$`: digits, at most one point, and
      at most two digits after the end of the optional point. */
  ghost predicate DecimalEntry(s: string)
  {
    exists i, j ::
      && 0 <= i <= j <= |s|
      && AllDigits(s[..i])
      && (j == i || (j == i + 1 && s[i] == '.'))
      && AllDigits(s[j..])
      && |s| - j <= 2
  }

  /** The length of the longest run of digits at the front of `s`. */
  function LeadingDigits(s: string): (k: nat)
    ensures k <= |s|
    ensures AllDigits(s[..k])
    ensures k < |s| ==> !IsDigit(s[k])
  {
    if |s| == 0 || !IsDigit(s[0]) then 0
    else
      var k := LeadingDigits(s[1..]);
      assert forall i :: 0 <= i < k ==> s[1..][..k][i] == s[i + 1];
      k + 1
  }

  /** The regular expression run as a scanner: as many digits as possible,
      then either the end, or a point followed by at most two digits. */
  function ScanDecimal(s: string): bool
  {
    var k := LeadingDigits(s);
    k == |s| || (s[k] == '.' && AllDigits(s[k + 1..]) && |s| - (k + 1) <= 2)
  }

  lemma ScanDecimalSound(s: string)
    requires ScanDecimal(s)
    ensures DecimalEntry(s)
  {
    var k := LeadingDigits(s);
    if k == |s| {
      assert s[|s|..] == [];
      assert AllDigits(s[..k]) && AllDigits(s[k..]);
    } else {
      assert AllDigits(s[..k]) && AllDigits(s[k + 1..]);
    }
  }

  /** Without a point the whole entry is digits. */
  lemma AllDigitsJoin(s: string, i: nat)
    requires i <= |s| && AllDigits(s[..i]) && AllDigits(s[i..])
    ensures AllDigits(s)
  {
    forall p | 0 <= p < |s|
      ensures IsDigit(s[p])
    {
      if p < i {
        assert s[..i][p] == s[p];
      } else {
        assert s[i..][p - i] == s[p];
      }
    }
  }

  /** A point right after a run of digits ends the scanner's digit run there. */
  lemma LeadingDigitsStopAtPoint(s: string, i: nat)
    requires i < |s| && AllDigits(s[..i]) && s[i] == '.'
    ensures LeadingDigits(s) == i
  {
  }

  /** An entry of digits only is consumed whole by the digit run. */
  lemma DigitsOnlyMatch(s: string)
    requires AllDigits(s)
    ensures ScanDecimal(s)
  {
  }

  /** Digits, a point and at most two digits: the digit run stops at the point. */
  lemma PointedMatch(s: string, i: nat)
    requires i < |s| && AllDigits(s[..i]) && s[i] == '.'
    requires AllDigits(s[i + 1..]) && |s| - (i + 1) <= 2
    ensures ScanDecimal(s)
  {
    LeadingDigitsStopAtPoint(s, i);
  }

  lemma ScanDecimalComplete(s: string)
    requires DecimalEntry(s)
    ensures ScanDecimal(s)
  {
    var i, j :| && 0 <= i <= j <= |s|
                && AllDigits(s[..i])
                && (j == i || (j == i + 1 && s[i] == '.'))
                && AllDigits(s[j..])
                && |s| - j <= 2;
    ScanDecimalCompleteAt(s, i, j);
  }

  /** The scanner accepts an entry split as the expression splits it at `i` and `j`. */
  lemma ScanDecimalCompleteAt(s: string, i: nat, j: nat)
    requires i <= j <= |s| && AllDigits(s[..i]) && AllDigits(s[j..]) && |s| - j <= 2
    requires j == i || (j == i + 1 && s[i] == '.')
    ensures ScanDecimal(s)
  {
    if j == i {
      assert AllDigits(s) by {
        AllDigitsJoin(s, i);
      }
      DigitsOnlyMatch(s);
    } else {
      PointedMatch(s, i);
    }
  }

  /** The scanner accepts exactly the entries the expression describes. */
  lemma ScanDecimalCorrect(s: string)
    ensures ScanDecimal(s) <==> DecimalEntry(s)
  {
    if ScanDecimal(s) {
      ScanDecimalSound(s);
    }
    if DecimalEntry(s) {
      ScanDecimalComplete(s);
    }
  }

  /** `/^\d*\.?\d{0,2}$/.test(s)`: true exactly for the entries the expression describes. */
  function MatchesDecimal(s: string): (b: bool)
    ensures b <==> DecimalEntry(s)
  {
    ScanDecimalCorrect(s);
    ScanDecimal(s)
  }

  /** The amount input's `onChange`: the stored value after a keystroke that
      leaves `value` in the box; `None` is the cleared field. */
  function OnAmountChange(value: string, stored: Option<string>): (next: Option<string>)
    ensures value == "" ==> next == None
    ensures value != "" && DecimalEntry(value) ==> next == Some(value)
    ensures value != "" && !DecimalEntry(value) ==> next == stored
  {
    if value == "" then None
    else if MatchesDecimal(value) then Some(value)
    else stored
  }

  /** Everything the filter lets through is digits and at most one point,
      with at most two digits after the point. */
  lemma AcceptedEntryShape(s: string)
    requires DecimalEntry(s)
    ensures forall p :: 0 <= p < |s| ==> IsDigit(s[p]) || s[p] == '.'
    ensures forall p, q :: 0 <= p < q < |s| && s[p] == '.' ==> s[q] != '.'
    ensures forall p :: 0 <= p < |s| && s[p] == '.' ==> |s| - (p + 1) <= 2
  {
    var i, j :| && 0 <= i <= j <= |s|
                && AllDigits(s[..i])
                && (j == i || (j == i + 1 && s[i] == '.'))
                && AllDigits(s[j..])
                && |s| - j <= 2;
    EntryShapeAt(s, i, j);
  }

  /** In an entry split at `i` and `j`, every character is a digit except at
      most one point, two or fewer characters from the end. */
  lemma EntryShapeAt(s: string, i: nat, j: nat)
    requires i <= j <= |s| && AllDigits(s[..i]) && AllDigits(s[j..]) && |s| - j <= 2
    requires j == i || (j == i + 1 && s[i] == '.')
    ensures forall p :: 0 <= p < |s| ==> IsDigit(s[p]) || s[p] == '.'
    ensures forall p, q :: 0 <= p < q < |s| && s[p] == '.' ==> s[q] != '.'
    ensures forall p :: 0 <= p < |s| && s[p] == '.' ==> |s| - (p + 1) <= 2
  {
    forall p | 0 <= p < |s|
      ensures IsDigit(s[p]) || (s[p] == '.' && p == i && j == i + 1)
    {
      if p < i {
        assert s[..i][p] == s[p];
      } else if p >= j {
        assert s[j..][p - j] == s[p];
      }
    }
    forall p, q | 0 <= p < q < |s| && s[p] == '.'
      ensures s[q] != '.'
    {
      assert p == i;
    }
  }

  /** Where the scanner's digit run stops on the example entries. */
  lemma LeadingDigitsExamples()
    ensures LeadingDigits(".") == 0 && LeadingDigits("12.") == 2 && LeadingDigits("12.34") == 2
    ensures LeadingDigits("12.345") == 2 && LeadingDigits("1.2.3") == 1 && LeadingDigits("1e5") == 1
  {
    assert LeadingDigits("12.") == 2 by {
      assert LeadingDigits("2.") == 1 by { assert LeadingDigits(".") == 0; }
    }
    assert LeadingDigits("12.34") == 2 by {
      assert LeadingDigits("2.34") == 1 by { assert LeadingDigits(".34") == 0; }
    }
    assert LeadingDigits("12.345") == 2 by {
      assert LeadingDigits("2.345") == 1 by { assert LeadingDigits(".345") == 0; }
    }
    assert LeadingDigits("1.2.3") == 1 by { assert LeadingDigits(".2.3") == 0; }
    assert LeadingDigits("1e5") == 1 by { assert LeadingDigits("e5") == 0; }
  }

  /** Half-typed amounts stay in the box; a third decimal or a second point does not. */
  lemma FilterExamples()
    ensures MatchesDecimal(".") && MatchesDecimal("12.") && MatchesDecimal("12.34") && MatchesDecimal("")
    ensures !MatchesDecimal("12.345") && !MatchesDecimal("1.2.3") && !MatchesDecimal("-1") && !MatchesDecimal("1e5")
  {
    LeadingDigitsExamples();
    assert !AllDigits("2.3") by { assert "2.3"[1] == '.'; }
  }
}

=== FILE: obligations.dfy ===
/** Recording an obligation against a tracking number, and the two read
    endpoints over the obligations sheet. */
module Obligations {
  import opened Sheets

  /** Column A of the record-vs-obligation summary holds the tracking number. */
  const SummaryKeyColumn: nat := 0
  /** Column B of that summary holds the date received. */
  const DateReceivedColumn: nat := 1
  /** Columns C, F and G of that summary: date obligated, days to obligate, status. */
  const DateObligatedColumn: nat := 2
  const DaysColumn: nat := 5
  const StatusColumn: nat := 6
  /** Column B of the obligations sheet holds the ORS number. */
  const OrsColumn: nat := 1
  /** The obligations sheet spans columns A to I. */
  const Width: nat := 9

  const Obligated := "Obligated"

  const MsPerDay: int := 1000 * 60 * 60 * 24

  datatype Request = Request(
    trackingNumber: string,
    orsNo: string,
    date: Option<int>,   // local midnight of year-month-day, None for an Invalid Date
    payee: string,
    nature: string,
    allotment: string,
    legalBasis: string,
    amount: int,          // centavos
    amountObligated: int  // centavos
  )

  function Abs(x: int): nat
  {
    if x < 0 then -x else x
  }

  /** `getDayDifference`: the whole days between two instants, rounded down. */
  function DayDifference(future: int, past: int): (d: nat)
    ensures d * MsPerDay <= Abs(past - future) < (d + 1) * MsPerDay
  {
    Abs(past - future) / MsPerDay
  }

  lemma DayDifferenceSymmetric(a: int, b: int)
    ensures DayDifference(a, b) == DayDifference(b, a)
  {
  }

  lemma DayDifferenceSame(t: int)
    ensures DayDifference(t, t) == 0
  {
  }

  /** Two instants exactly `n` days apart are `n` days apart, whichever comes first. */
  lemma DayDifferenceWholeDays(t: int, n: nat)
    ensures DayDifference(t + n * MsPerDay, t) == n
    ensures DayDifference(t, t + n * MsPerDay) == n
  {
  }

  /** `new Date(cell)` on the stored date received; only a date written by the application parses. */
  function ParseDate(c: Cell): Option<int>
  {
    match c
    case Date(ms) => Some(ms)
    case _ => None
  }

  /** The obligations sheet row, columns A to I. */
  function ObligationRow(r: Request): (row: Row)
    ensures |row| == Width
    ensures row[OrsColumn] == Text(r.orsNo)
    ensures row[3] == Text(r.payee) && row[4] == Text(r.nature)
    ensures row[8] == Number(Finite(r.amountObligated))
  {
    [Text(r.trackingNumber), Text(r.orsNo), DateCell(r.date), Text(r.payee), Text(r.nature),
     Text(r.allotment), Text(r.legalBasis), Number(Finite(r.amount)), Number(Finite(r.amountObligated))]
  }

  /** Days to obligate: NaN when the obligation date is an Invalid Date. */
  function DaysToObligate(date: Option<int>, received: int): Num
  {
    match date
    case Some(ms) => Finite(DayDifference(ms, received))
    case None => NaN
  }

  /** The batch update of cells C, F and G of the summary row at index `i`. */
  function MarkObligated(summary: Sheet, i: nat, r: Request, received: int): (s: Sheet)
    requires i < |summary|
    ensures |s| == |summary|
    ensures forall j :: 0 <= j < |summary| && j != i ==> s[j] == summary[j]
    ensures |s[i]| == if |summary[i]| <= StatusColumn then StatusColumn + 1 else |summary[i]|
    ensures s[i][DateObligatedColumn] == DateCell(r.date)
    ensures s[i][DaysColumn] == Number(DaysToObligate(r.date, received))
    ensures s[i][StatusColumn] == Text(Obligated)
    ensures forall c :: 0 <= c < |summary[i]| && c != DateObligatedColumn && c != DaysColumn && c != StatusColumn ==>
      s[i][c] == summary[i][c]
    ensures forall c :: |summary[i]| <= c < |s[i]| && c != DateObligatedColumn && c != DaysColumn && c != StatusColumn ==>
      s[i][c] == Empty
  {
    var s1 := Patch(summary, i, DateObligatedColumn, DateCell(r.date));
    var s2 := Patch(s1, i, DaysColumn, Number(DaysToObligate(r.date, received)));
    Patch(s2, i, StatusColumn, Text(Obligated))
  }

  /** POST /api/obligations. */
  function Handle(s: Store, r: Request): (out: Outcome)
    ensures LookupIndex(s.recordVsObligation, SummaryKeyColumn, r.trackingNumber).None? ==>
      out == Outcome(s, Response(NotFound, MessageOnly))
    ensures var i := LookupIndex(s.recordVsObligation, SummaryKeyColumn, r.trackingNumber);
      i.Some? && CellAt(s.recordVsObligation[i.value], DateReceivedColumn).None? ==>
        out == Outcome(s, Response(NotFound, MessageOnly))
    ensures var i := LookupIndex(s.recordVsObligation, SummaryKeyColumn, r.trackingNumber);
      && i.Some?
      && CellAt(s.recordVsObligation[i.value], DateReceivedColumn).Some?
      && ParseDate(CellAt(s.recordVsObligation[i.value], DateReceivedColumn).value).None? ==>
        out == Outcome(s, Response(ServerError, MessageOnly))
    ensures out.response.status != Ok ==> out.store == s
    ensures out.response.status in {Ok, NotFound, ServerError}
    ensures out.store.recordLog == s.recordLog
    ensures out.store.disbursements == s.disbursements
    ensures out.store.obligationVsDisbursement == s.obligationVsDisbursement
    ensures out.response.status == Ok <==>
      var i := LookupIndex(s.recordVsObligation, SummaryKeyColumn, r.trackingNumber);
      && i.Some?
      && CellAt(s.recordVsObligation[i.value], DateReceivedColumn).Some?
      && ParseDate(CellAt(s.recordVsObligation[i.value], DateReceivedColumn).value).Some?
    ensures out.response.status == Ok ==>
      var i := LookupIndex(s.recordVsObligation, SummaryKeyColumn, r.trackingNumber).value;
      var received := ParseDate(CellAt(s.recordVsObligation[i], DateReceivedColumn).value).value;
      && out.store.obligations == s.obligations + [ObligationRow(r)]
      && out.store.recordVsObligation == MarkObligated(s.recordVsObligation, i, r, received)
  {
    match LookupIndex(s.recordVsObligation, SummaryKeyColumn, r.trackingNumber)
    case None => Outcome(s, Response(NotFound, MessageOnly))
    case Some(i) =>
      match CellAt(s.recordVsObligation[i], DateReceivedColumn)
      case None => Outcome(s, Response(NotFound, MessageOnly))
      case Some(cell) =>
        match ParseDate(cell)
        case None => Outcome(s, Response(ServerError, MessageOnly))
        case Some(received) =>
          var store := s.(obligations := Append(s.obligations, ObligationRow(r)),
                          recordVsObligation := MarkObligated(s.recordVsObligation, i, r, received));
          Outcome(store, Response(Ok, MessageOnly))
  }

  /** A second obligation on the same tracking number finds the same row and
      writes the same three cells again: the summary ends as after the first. */
  lemma ObligateTwice(s: Store, r: Request)
    requires Handle(s, r).response.status == Ok
    ensures var s1 := Handle(s, r).store;
      && Handle(s1, r).response.status == Ok
      && Handle(s1, r).store.recordVsObligation == s1.recordVsObligation
      && |Handle(s1, r).store.obligations| == |s.obligations| + 2
  {
    var summary := s.recordVsObligation;
    var i := LookupIndex(summary, SummaryKeyColumn, r.trackingNumber).value;
    var received := ParseDate(CellAt(summary[i], DateReceivedColumn).value).value;
    var s1 := Handle(s, r).store;
    var s1Summary := s1.recordVsObligation;
    assert forall j :: 0 <= j < |summary| ==> CellAt(s1Summary[j], SummaryKeyColumn) == CellAt(summary[j], SummaryKeyColumn);
    assert LookupIndex(s1Summary, SummaryKeyColumn, r.trackingNumber) == Some(i) by {
      var k := LookupIndex(s1Summary, SummaryKeyColumn, r.trackingNumber);
      assert Holds(CellAt(s1Summary[i], SummaryKeyColumn), r.trackingNumber);
      assert k.Some? && k.value <= i;
    }
    assert CellAt(s1Summary[i], DateReceivedColumn) == CellAt(summary[i], DateReceivedColumn);
    var again := MarkObligated(s1Summary, i, r, received);
    assert again[i] == s1Summary[i];
    assert again == s1Summary;
  }

  // ---------------------------------------------------------------------------
  // Read endpoints over the obligations sheet

  /** POST /api/obligations/get-row-from-ors-number. */
  function LookupByOrsNumber(s: Store, orsNumber: string): (resp: Response)
    ensures LookupIndex(s.obligations, OrsColumn, orsNumber).None? ==> resp == Response(Ok, MessageOnly)
    ensures LookupIndex(s.obligations, OrsColumn, orsNumber).Some? ==>
      var row := s.obligations[LookupIndex(s.obligations, OrsColumn, orsNumber).value];
      resp == Response(Ok, Record([Field("payee", Get(row, 3)),
                                   Field("nature_of_transaction", Get(row, 4)),
                                   Field("amount_obligated", Get(row, 8))]))
  {
    match LookupIndex(s.obligations, OrsColumn, orsNumber)
    case None => Response(Ok, MessageOnly)
    case Some(i) =>
      assert Take(s.obligations[i], Width)[OrsColumn] != Empty;
      match ReadRow(s.obligations, i, Width)
      case None => Response(NotFound, MessageOnly)
      case Some(row) =>
        Response(Ok, Record([Field("payee", Get(row, 3)),
                             Field("nature_of_transaction", Get(row, 4)),
                             Field("amount_obligated", Get(row, 8))]))
  }

  /** GET /api/obligations/get-ors-numbers. */
  function OrsNumbers(s: Store): (resp: Response)
    ensures resp.body.Items?
    ensures resp.status == NoContent <==> Blank(Column(s.obligations, OrsColumn))
    ensures resp.status == NoContent ==> resp.body.items == []
    ensures resp.status == Ok ==> resp.body.items == FirstValues(Column(s.obligations, OrsColumn)) && resp.body.items != []
    ensures resp.status == Ok ==> forall k :: 0 <= k < |resp.body.items| ==> resp.body.items[k] != Empty
    ensures resp.status in {Ok, NoContent}
  {
    ListedValuesNonEmpty(s.obligations, OrsColumn);
    match ReadColumn(s.obligations, OrsColumn)
    case None => Response(NoContent, Items([]))
    case Some(col) => Response(Ok, Items(FirstValues(col)))
  }

  /** GET /api/obligations/get-ors-numbers as the platform runs it: the
      blank-column branch hands a body to the constructor with status 204,
      the constructor throws, and the catch answers 500 with a message. */
  function OrsNumbersAsWritten(s: Store): (resp: Response)
    ensures Blank(Column(s.obligations, OrsColumn)) ==> resp == Response(ServerError, MessageOnly)
    ensures !Blank(Column(s.obligations, OrsColumn)) ==> resp == OrsNumbers(s)
  {
    match Construct(OrsNumbers(s))
    case None => Response(ServerError, MessageOnly)
    case Some(built) => built
  }
}

=== FILE: recordlog.dfy ===
/** Record intake: the record-log submission, which also opens the
    record-vs-obligation summary row, and the two read endpoints over the
    record log. */
module RecordLog {
  import opened Sheets

  /** Column B of the record log holds the tracking number. */
  const TrackingColumn: nat := 1
  /** The record log spans columns A to G. */
  const Width: nat := 7

  const NotObligated := "Not Obligated"

  datatype Request = Request(
    date: Option<int>,   // local midnight of year-month-day, None for an Invalid Date
    trackingNumber: string,
    payee: string,
    nature: string,
    allotment: string,
    legalBasis: string,
    amount: int          // centavos
  )

  /** The record log row: date, tracking number, payee, nature, allotment, legal basis, amount. */
  function RecordRow(r: Request): (row: Row)
    ensures |row| == Width
    ensures row[TrackingColumn] == Text(r.trackingNumber)
    ensures row[2] == Text(r.payee) && row[3] == Text(r.nature) && row[4] == Text(r.allotment)
    ensures row[5] == Text(r.legalBasis) && row[6] == Number(Finite(r.amount))
  {
    [DateCell(r.date), Text(r.trackingNumber), Text(r.payee), Text(r.nature),
     Text(r.allotment), Text(r.legalBasis), Number(Finite(r.amount))]
  }

  /** The new record-vs-obligation row: date obligated and days to obligate
      left empty, status not obligated. */
  function SummaryRow(r: Request): (row: Row)
    ensures |row| == 7
    ensures row[0] == Text(r.trackingNumber)
    ensures row[2] == Empty && row[5] == Empty
    ensures row[6] == Text(NotObligated)
  {
    [Text(r.trackingNumber), DateCell(r.date), Empty, Text(r.payee),
     Number(Finite(r.amount)), Empty, Text(NotObligated)]
  }

  /** Both rows written for one record carry the same tracking number, date and amount. */
  lemma RowsAgree(r: Request)
    ensures RecordRow(r)[1] == SummaryRow(r)[0]
    ensures RecordRow(r)[0] == SummaryRow(r)[1]
    ensures RecordRow(r)[6] == SummaryRow(r)[4]
  {
  }

  /** POST /api/record-log. */
  function Handle(s: Store, r: Request): (out: Outcome)
    ensures r.date.None? <==> out.response.status == BadRequest
    ensures r.date.None? ==> out.store == s
    ensures r.date.Some? ==> out.response.status == Ok
    ensures r.date.Some? ==>
      && out.store.recordLog == s.recordLog + [RecordRow(r)]
      && out.store.recordVsObligation == s.recordVsObligation + [SummaryRow(r)]
    ensures out.store.obligations == s.obligations
    ensures out.store.disbursements == s.disbursements
    ensures out.store.obligationVsDisbursement == s.obligationVsDisbursement
  {
    if r.date.None? then Outcome(s, Response(BadRequest, MessageOnly))
    else
      var store := s.(recordLog := Append(s.recordLog, RecordRow(r)),
                      recordVsObligation := Append(s.recordVsObligation, SummaryRow(r)));
      Outcome(store, Response(Ok, MessageOnly))
  }

  // ---------------------------------------------------------------------------
  // Read endpoints over the record log

  /** POST /api/record-log/get-row-from-tracking-number. */
  function LookupByTrackingNumber(s: Store, trackingNumber: string): (resp: Response)
    ensures LookupIndex(s.recordLog, TrackingColumn, trackingNumber).None? ==> resp == Response(NotFound, MessageOnly)
    ensures LookupIndex(s.recordLog, TrackingColumn, trackingNumber).Some? ==>
      var row := s.recordLog[LookupIndex(s.recordLog, TrackingColumn, trackingNumber).value];
      resp == Response(Ok, Record([Field("payee", Get(row, 2)),
                                   Field("nature_of_transaction", Get(row, 3)),
                                   Field("allotment_class", Get(row, 4)),
                                   Field("legal_basis", Get(row, 5)),
                                   Field("amount", Get(row, 6))]))
  {
    match LookupIndex(s.recordLog, TrackingColumn, trackingNumber)
    case None => Response(NotFound, MessageOnly)
    case Some(i) =>
      assert Take(s.recordLog[i], Width)[TrackingColumn] != Empty;
      match ReadRow(s.recordLog, i, Width)
      case None => Response(NotFound, MessageOnly)
      case Some(row) =>
        Response(Ok, Record([Field("payee", Get(row, 2)),
                             Field("nature_of_transaction", Get(row, 3)),
                             Field("allotment_class", Get(row, 4)),
                             Field("legal_basis", Get(row, 5)),
                             Field("amount", Get(row, 6))]))
  }

  /** GET /api/record-log/get-tracking-numbers. */
  function TrackingNumbers(s: Store): (resp: Response)
    ensures resp.body.Items?
    ensures resp.status == NoContent <==> Blank(Column(s.recordLog, TrackingColumn))
    ensures resp.status == NoContent ==> resp.body.items == []
    ensures resp.status == Ok ==> resp.body.items == FirstValues(Column(s.recordLog, TrackingColumn)) && resp.body.items != []
    ensures resp.status == Ok ==> forall k :: 0 <= k < |resp.body.items| ==> resp.body.items[k] != Empty
    ensures resp.status in {Ok, NoContent}
  {
    ListedValuesNonEmpty(s.recordLog, TrackingColumn);
    match ReadColumn(s.recordLog, TrackingColumn)
    case None => Response(NoContent, Items([]))
    case Some(col) => Response(Ok, Items(FirstValues(col)))
  }

  /** GET /api/record-log/get-tracking-numbers as the platform runs it: the
      blank-column branch's 204 with a body throws, and the catch answers 500. */
  function TrackingNumbersAsWritten(s: Store): (resp: Response)
    ensures Blank(Column(s.recordLog, TrackingColumn)) ==> resp == Response(ServerError, MessageOnly)
    ensures !Blank(Column(s.recordLog, TrackingColumn)) ==> resp == TrackingNumbers(s)
  {
    match Construct(TrackingNumbers(s))
    case None => Response(ServerError, MessageOnly)
    case Some(built) => built
  }
}

=== FILE: sheets.dfy ===
/** The spreadsheet as the request handlers see it.

    Every sheet is a sequence of data rows; the header occupies sheet row 1,
    so the row at index `i` is addressed as sheet row `i + 2`.  A cell holds
    text, a JavaScript number (restricted here to exact integers: amounts in
    centavos, day counts; or NaN) or a date written by the application.  The
    empty cell is the empty text.  Reads return cells exactly as written.
 */
module Sheets {

  datatype Option<+T> = None | Some(value: T)

  /** A JavaScript number as the handlers produce it: an exact integer or NaN. */
  datatype Num = Finite(v: int) | NaN

  /** JavaScript `+`: NaN absorbs everything. */
  function Add(a: Num, b: Num): Num
  {
    if a.Finite? && b.Finite? then Finite(a.v + b.v) else NaN
  }

  /** JavaScript `-`: NaN absorbs everything. */
  function Sub(a: Num, b: Num): Num
  {
    if a.Finite? && b.Finite? then Finite(a.v - b.v) else NaN
  }

  /** A date cell holds the locale date string of the day whose local midnight is `ms`. */
  datatype Cell = Text(s: string) | Number(n: Num) | Date(ms: int)

  const Empty: Cell := Text("")

  type Row = seq<Cell>

  /** The data rows of one sheet, the first of them at sheet row 2. */
  type Sheet = seq<Row>

  datatype Store = Store(
    recordLog: Sheet,                 // 'RecordLog'!A:G
    recordVsObligation: Sheet,        // 'Summary_Record_vs_Obligation'!A:G
    obligations: Sheet,               // 'Obligations'!A:I
    disbursements: Sheet,             // 'Disbursements'!A:I
    obligationVsDisbursement: Sheet   // 'Summary_Obligation_vs_Disbursement'!A:E
  )

  /** The sheet row number of the data row at `index`: one header row, one-based numbering. */
  function RowNumber(index: nat): nat
  {
    index + 2
  }

  /** A date value rendered into a cell; an Invalid Date renders as the text "Invalid Date". */
  function DateCell(date: Option<int>): Cell
  {
    match date
    case Some(ms) => Date(ms)
    case None => Text("Invalid Date")
  }

  // ---------------------------------------------------------------------------
  // Reads

  /** The value a one-cell or one-column read yields for column `c` of `row`:
      nothing when the cell is past the end of the row or empty. */
  function CellAt(row: Row, c: nat): Option<Cell>
  {
    if c < |row| && row[c] != Empty then Some(row[c]) else None
  }

  /** `row[i]` on a fetched row: the raw cell, undefined past the end. */
  function Get(row: Row, i: nat): Option<Cell>
  {
    if i < |row| then Some(row[i]) else None
  }

  function Column(sheet: Sheet, c: nat): (col: seq<Option<Cell>>)
    ensures |col| == |sheet|
    ensures forall i :: 0 <= i < |sheet| ==> col[i] == CellAt(sheet[i], c)
  {
    seq(|sheet|, i requires 0 <= i < |sheet| => CellAt(sheet[i], c))
  }

  predicate Blank(col: seq<Option<Cell>>)
  {
    forall i :: 0 <= i < |col| ==> col[i].None?
  }

  /** A `values.get` of one column from row 2 down: the response has no
      `values` at all when no cell of the column holds anything. */
  function ReadColumn(sheet: Sheet, c: nat): Option<seq<Option<Cell>>>
  {
    var col := Column(sheet, c);
    if Blank(col) then None else Some(col)
  }

  /** The strict comparison `row[0] === key` of a column entry with a key string. */
  predicate Holds(entry: Option<Cell>, key: string)
  {
    entry == Some(Text(key))
  }

  /** `Array.prototype.findIndex` with `-1` read as `None`. */
  function FindIndex(col: seq<Option<Cell>>, key: string): (r: Option<nat>)
    ensures r.Some? ==> r.value < |col| && Holds(col[r.value], key)
    ensures r.Some? ==> forall j :: 0 <= j < r.value ==> !Holds(col[j], key)
    ensures r.None? <==> forall j :: 0 <= j < |col| ==> !Holds(col[j], key)
  {
    if |col| == 0 then None
    else if Holds(col[0], key) then Some(0)
    else
      match FindIndex(col[1..], key)
      case None => None
      case Some(i) => Some(i + 1)
  }

  /** `rows?.findIndex(row => row[0] === key)` over a freshly read column,
      with both `undefined` (no values) and `-1` read as not found. */
  function LookupIndex(sheet: Sheet, c: nat, key: string): (r: Option<nat>)
    ensures r.Some? ==> r.value < |sheet| && Holds(CellAt(sheet[r.value], c), key)
    ensures r.Some? ==> forall j :: 0 <= j < r.value ==> !Holds(CellAt(sheet[j], c), key)
    ensures r.None? <==> forall j :: 0 <= j < |sheet| ==> !Holds(CellAt(sheet[j], c), key)
  {
    match ReadColumn(sheet, c)
    case None => None
    case Some(col) => FindIndex(col, key)
  }

  /** The first `width` cells of a row, as a range `A{n}:X{n}` returns them. */
  function Take(row: Row, width: nat): Row
  {
    if |row| <= width then row else row[..width]
  }

  predicate BlankRow(row: Row)
  {
    forall j :: 0 <= j < |row| ==> row[j] == Empty
  }

  /** A `values.get` of the one-row range `A{n}:X{n}` with `n = RowNumber(i)`:
      nothing when the row holds no value within the range. */
  function ReadRow(sheet: Sheet, i: nat, width: nat): Option<Row>
  {
    if i < |sheet| && !BlankRow(Take(sheet[i], width)) then Some(Take(sheet[i], width)) else None
  }

  /** A `values.get` of the range `A2:X` for a sheet `width` columns wide:
      nothing when no row holds a value within the range. */
  function ReadRange(sheet: Sheet, width: nat): (r: Option<seq<Row>>)
    ensures r.None? <==> forall i :: 0 <= i < |sheet| ==> BlankRow(Take(sheet[i], width))
    ensures r.Some? ==> |r.value| == |sheet| && forall i :: 0 <= i < |sheet| ==> r.value[i] == Take(sheet[i], width)
  {
    var rows := seq(|sheet|, i requires 0 <= i < |sheet| => Take(sheet[i], width));
    if forall i :: 0 <= i < |sheet| ==> BlankRow(Take(sheet[i], width)) then None else Some(rows)
  }

  // ---------------------------------------------------------------------------
  // Writes

  /** `values.append`: the new row goes below the last row of the sheet. */
  function Append(sheet: Sheet, row: Row): Sheet
  {
    sheet + [row]
  }

  /** Writing one cell: a row shorter than the target column grows with empty cells. */
  function SetCell(row: Row, c: nat, v: Cell): (r: Row)
    ensures |r| == if c < |row| then |row| else c + 1
    ensures r[c] == v
    ensures forall j :: 0 <= j < |row| && j != c ==> r[j] == row[j]
    ensures forall j :: |row| <= j < c ==> r[j] == Empty
  {
    if c < |row| then row[c := v] else row + seq(c - |row|, _ => Empty) + [v]
  }

  /** One range of a `values.batchUpdate`: cell `c` of the data row at index `i`. */
  function Patch(sheet: Sheet, i: nat, c: nat, v: Cell): (s: Sheet)
    requires i < |sheet|
    ensures |s| == |sheet|
  {
    sheet[i := SetCell(sheet[i], c, v)]
  }

  // ---------------------------------------------------------------------------
  // What writes do to later lookups

  /** Appending a row never moves an existing first match; the new row is
      found only when nothing above it matches. */
  lemma LookupAfterAppend(sheet: Sheet, row: Row, c: nat, key: string)
    ensures LookupIndex(Append(sheet, row), c, key) ==
      if LookupIndex(sheet, c, key).Some? then LookupIndex(sheet, c, key)
      else if Holds(CellAt(row, c), key) then Some(|sheet|)
      else None
  {
    var s' := Append(sheet, row);
    assert forall j :: 0 <= j < |sheet| ==> CellAt(s'[j], c) == CellAt(sheet[j], c);
    var before := LookupIndex(sheet, c, key);
    var after := LookupIndex(s', c, key);
    if before.None? {
      if Holds(CellAt(row, c), key) {
        assert Holds(CellAt(s'[|sheet|], c), key);
      }
    }
  }

  /** Writing a cell outside the key column leaves every lookup on the key column as it was. */
  lemma LookupAfterPatch(sheet: Sheet, i: nat, c': nat, v: Cell, c: nat, key: string)
    requires i < |sheet| && c' != c
    ensures LookupIndex(Patch(sheet, i, c', v), c, key) == LookupIndex(sheet, c, key)
  {
    var s' := Patch(sheet, i, c', v);
    assert forall j :: 0 <= j < |sheet| ==> CellAt(s'[j], c) == CellAt(sheet[j], c);
  }

  // ---------------------------------------------------------------------------
  // Listing a key column

  /** `rows.map(row => row[0]).filter(item => item)` over a read column: a
      missing or empty first cell is falsy; every value the store returns for
      a filled cell is a non-empty string, hence truthy. */
  function FirstValues(col: seq<Option<Cell>>): (items: seq<Cell>)
    ensures |items| <= |col|
    ensures |items| == |col| <==> forall i :: 0 <= i < |col| ==> col[i].Some?
    ensures forall x :: x in items <==> exists i :: 0 <= i < |col| && col[i] == Some(x)
  {
    if |col| == 0 then []
    else
      var rest := FirstValues(col[..|col| - 1]);
      assert forall i :: 0 <= i < |col| - 1 ==> col[..|col| - 1][i] == col[i];
      match col[|col| - 1]
      case None => rest
      case Some(x) => rest + [x]
  }

  /** Listing a column of a sheet never yields an empty cell. */
  lemma ListedValuesNonEmpty(sheet: Sheet, c: nat)
    ensures forall k :: 0 <= k < |FirstValues(Column(sheet, c))| ==> FirstValues(Column(sheet, c))[k] != Empty
  {
    var col := Column(sheet, c);
    var items := FirstValues(col);
    forall k | 0 <= k < |items|
      ensures items[k] != Empty
    {
      assert items[k] in items;
      var i :| 0 <= i < |col| && col[i] == Some(items[k]);
      assert col[i] == CellAt(sheet[i], c);
    }
  }

  /** The number of entries of a column that hold exactly `x`. */
  function Occurrences(col: seq<Option<Cell>>, x: Cell): nat
  {
    if |col| == 0 then 0
    else Occurrences(col[..|col| - 1], x) + (if col[|col| - 1] == Some(x) then 1 else 0)
  }

  /** Listing keeps the original order: it distributes over concatenation. */
  lemma {:induction false} FirstValuesConcat(a: seq<Option<Cell>>, b: seq<Option<Cell>>)
    ensures FirstValues(a + b) == FirstValues(a) + FirstValues(b)
    decreases |b|
  {
    if |b| == 0 {
      assert a + b == a;
    } else {
      var b' := b[..|b| - 1];
      assert (a + b)[..|a + b| - 1] == a + b';
      assert (a + b)[|a + b| - 1] == b[|b| - 1];
      FirstValuesConcat(a, b');
    }
  }

  /** Listing keeps duplicates: each value appears as often as the column holds it. */
  lemma {:induction false} FirstValuesKeepsDuplicates(col: seq<Option<Cell>>, x: Cell)
    ensures multiset(FirstValues(col))[x] == Occurrences(col, x)
    decreases |col|
  {
    if |col| > 0 {
      FirstValuesKeepsDuplicates(col[..|col| - 1], x);
    }
  }

  // ---------------------------------------------------------------------------
  // Responses

  datatype Status = Ok | NoContent | BadRequest | NotFound | ServerError

  /** One property of a JSON object; an undefined value is left out of the JSON. */
  datatype Field = Field(key: string, value: Option<Cell>)

  /** The JSON body besides its `message` string. */
  datatype Body =
    | MessageOnly
    | NullData
    | Items(items: seq<Cell>)
    | Record(fields: seq<Field>)
    | Records(rows: seq<seq<Field>>)

  datatype Response = Response(status: Status, body: Body)

  datatype Outcome = Outcome(store: Store, response: Response)

  /** Building a response object.  Every handler hands the constructor a JSON
      body, and the platform's `Response` constructor, which `NextResponse`
      extends, throws a `TypeError` when a body comes with a null-body status
      such as 204 (the "initialize a response" steps of the WHATWG Fetch
      standard).  `None` is that throw. */
  function Construct(resp: Response): (built: Option<Response>)
    ensures built.None? <==> resp.status == NoContent
    ensures built.Some? ==> built.value == resp
  {
    if resp.status == NoContent then None else Some(resp)
  }
}

=== FILE: summaries.dfy ===
/** The two summary views: every summary row turned into an object by
    zipping a fixed list of keys onto its cells. */
module Summaries {
  import opened Sheets

  const RecordVsObligationKeys: seq<string> :=
    ["tracking_no", "date_received", "date_obligated", "payee", "amount", "days_to_obligate", "status"]

  const ObligationVsDisbursementKeys: seq<string> :=
    ["ors_number", "payee", "amount_obligated", "total_disbursed", "balance"]

  /** `Object.fromEntries(keys.map((key, index) => [key, row[index]]))`. */
  function ToObject(keys: seq<string>, row: Row): (fields: seq<Field>)
    ensures |fields| == |keys|
  {
    seq(|keys|, k requires 0 <= k < |keys| => Field(keys[k], Get(row, k)))
  }

  /** The view of one sheet `|keys|` columns wide. */
  function View(sheet: Sheet, keys: seq<string>): (resp: Response)
    ensures resp.status in {Ok, NoContent}
    ensures resp.status == NoContent <==> forall i :: 0 <= i < |sheet| ==> BlankRow(Take(sheet[i], |keys|))
    ensures resp.status == NoContent ==> resp.body == NullData
    ensures resp.status == Ok ==>
      && resp.body.Records?
      && |resp.body.rows| == |sheet|
      && forall i, k :: 0 <= i < |sheet| && 0 <= k < |keys| ==>
           |resp.body.rows[i]| == |keys| && resp.body.rows[i][k] == Field(keys[k], Get(sheet[i], k))
  {
    match ReadRange(sheet, |keys|)
    case None => Response(NoContent, NullData)
    case Some(rows) =>
      Response(Ok, Records(seq(|rows|, i requires 0 <= i < |rows| => ToObject(keys, rows[i]))))
  }

  /** GET /api/record-vs-obligation. */
  function RecordVsObligation(s: Store): (resp: Response)
    ensures resp.status in {Ok, NoContent}
    ensures resp.status == NoContent ==> resp.body == NullData
    ensures resp.status == Ok ==>
      && resp.body.Records?
      && |resp.body.rows| == |s.recordVsObligation|
      && forall i, k :: 0 <= i < |s.recordVsObligation| && 0 <= k < 7 ==>
           |resp.body.rows[i]| == 7
           && resp.body.rows[i][k] == Field(RecordVsObligationKeys[k], Get(s.recordVsObligation[i], k))
  {
    View(s.recordVsObligation, RecordVsObligationKeys)
  }

  /** GET /api/obligation-vs-disbursement. */
  function ObligationVsDisbursement(s: Store): (resp: Response)
    ensures resp.status in {Ok, NoContent}
    ensures resp.status == NoContent ==> resp.body == NullData
    ensures resp.status == Ok ==>
      && resp.body.Records?
      && |resp.body.rows| == |s.obligationVsDisbursement|
      && forall i, k :: 0 <= i < |s.obligationVsDisbursement| && 0 <= k < 5 ==>
           |resp.body.rows[i]| == 5
           && resp.body.rows[i][k] == Field(ObligationVsDisbursementKeys[k], Get(s.obligationVsDisbursement[i], k))
  {
    View(s.obligationVsDisbursement, ObligationVsDisbursementKeys)
  }

  /** A view as the platform runs it: the empty-sheet branch's 204 with a body
      throws, and the catch answers 500 with null data. */
  function ViewAsWritten(sheet: Sheet, keys: seq<string>): (resp: Response)
    ensures (forall i :: 0 <= i < |sheet| ==> BlankRow(Take(sheet[i], |keys|))) ==>
      resp == Response(ServerError, NullData)
    ensures !(forall i :: 0 <= i < |sheet| ==> BlankRow(Take(sheet[i], |keys|))) ==>
      resp == View(sheet, keys)
  {
    match Construct(View(sheet, keys))
    case None => Response(ServerError, NullData)
    case Some(built) => built
  }

  /** GET /api/record-vs-obligation as the platform runs it. */
  function RecordVsObligationAsWritten(s: Store): (resp: Response)
    ensures (forall i :: 0 <= i < |s.recordVsObligation| ==> BlankRow(Take(s.recordVsObligation[i], 7))) ==>
      resp == Response(ServerError, NullData)
    ensures !(forall i :: 0 <= i < |s.recordVsObligation| ==> BlankRow(Take(s.recordVsObligation[i], 7))) ==>
      resp == RecordVsObligation(s)
  {
    ViewAsWritten(s.recordVsObligation, RecordVsObligationKeys)
  }

  /** GET /api/obligation-vs-disbursement as the platform runs it. */
  function ObligationVsDisbursementAsWritten(s: Store): (resp: Response)
    ensures (forall i :: 0 <= i < |s.obligationVsDisbursement| ==> BlankRow(Take(s.obligationVsDisbursement[i], 5))) ==>
      resp == Response(ServerError, NullData)
    ensures !(forall i :: 0 <= i < |s.obligationVsDisbursement| ==> BlankRow(Take(s.obligationVsDisbursement[i], 5))) ==>
      resp == ObligationVsDisbursement(s)
  {
    ViewAsWritten(s.obligationVsDisbursement, ObligationVsDisbursementKeys)
  }
}

=== FILE: workflow.dfy ===
/** The handlers run one after another against one store: what each leaves
    for the others, and the invariant the obligation-vs-disbursement summary
    keeps with the disbursement log. */
module Workflow {
  import opened Sheets
  import Disbursements
  import Obligations
  import RecordLog
  import Summaries

  /** The three submissions that write to the store. */
  datatype Request =
    | Intake(record: RecordLog.Request)
    | Obligate(obligation: Obligations.Request)
    | Disburse(disbursement: Disbursements.Request)

  function Apply(s: Store, req: Request): Outcome
  {
    match req
    case Intake(r) => RecordLog.Handle(s, r)
    case Obligate(r) => Obligations.Handle(s, r)
    case Disburse(r) => Disbursements.Handle(s, r)
  }

  /** The store after handling the requests in order, each to completion. */
  function Run(s: Store, reqs: seq<Request>): Store
  {
    if |reqs| == 0 then s else Apply(Run(s, reqs[..|reqs| - 1]), reqs[|reqs| - 1]).store
  }

  const EmptyStore := Store([], [], [], [], [])

  // ---------------------------------------------------------------------------
  // Running totals agree with the log

  /** The first summary row for `key` carries, in column D, everything the log
      records as disbursed against `key`; without a summary row nothing has
      been disbursed against it. */
  ghost predicate TotalsAgreeFor(s: Store, key: string)
  {
    match LookupIndex(s.obligationVsDisbursement, Disbursements.KeyColumn, key)
    case Some(i) =>
      CellAt(s.obligationVsDisbursement[i], Disbursements.TotalColumn)
        == Some(Number(Disbursements.PriorDisbursed(s.disbursements, key)))
    case None => Disbursements.PriorDisbursed(s.disbursements, key) == Finite(0)
  }

  ghost predicate TotalsAgree(s: Store)
  {
    forall key :: TotalsAgreeFor(s, key)
  }

  /** A disbursement keeps the totals for every key in agreement. */
  lemma DisbursementKeepsTotals(s: Store, r: Disbursements.Request, key: string)
    requires TotalsAgreeFor(s, key)
    ensures TotalsAgreeFor(Disbursements.Handle(s, r).store, key)
  {
    var s' := Disbursements.Handle(s, r).store;
    var t := Disbursements.CalculateBalanceAndTotal(s.disbursements, r.orsNo, r.amountObligated, r.amountDisbursed);
    var row := Disbursements.LogRow(r, t.balance);
    if key == "" {
      Disbursements.NoRowsNothingDisbursed(s'.disbursements, key);
    } else if key == r.orsNo {
      Disbursements.HandleRecordsTotal(s, r);
    } else {
      assert Disbursements.PriorDisbursed(s'.disbursements, key) == Disbursements.PriorDisbursed(s.disbursements, key) by {
        Disbursements.PriorDisbursedOtherRow(s.disbursements, row, key);
      }
      Disbursements.UpsertOtherKey(s.obligationVsDisbursement, r, t, key);
    }
  }

  /** Every handler keeps the totals in agreement. */
  lemma ApplyKeepsTotals(s: Store, req: Request)
    requires TotalsAgree(s)
    ensures TotalsAgree(Apply(s, req).store)
  {
    forall key
      ensures TotalsAgreeFor(Apply(s, req).store, key)
    {
      assert TotalsAgreeFor(s, key);
      if req.Disburse? {
        DisbursementKeepsTotals(s, req.disbursement, key);
      }
    }
  }

  lemma EmptyStoreAgrees()
    ensures TotalsAgree(EmptyStore)
  {
  }

  /** Under sequential handling the totals never drift from the log. */
  lemma {:induction false} RunKeepsTotals(s: Store, reqs: seq<Request>)
    requires TotalsAgree(s)
    ensures TotalsAgree(Run(s, reqs))
    decreases |reqs|
  {
    if |reqs| > 0 {
      RunKeepsTotals(s, reqs[..|reqs| - 1]);
      ApplyKeepsTotals(Run(s, reqs[..|reqs| - 1]), reqs[|reqs| - 1]);
    }
  }

  // ---------------------------------------------------------------------------
  // The totals are the sums of what was submitted

  /** The sum of the amounts of every disbursement request for `key`. */
  function Submitted(reqs: seq<Request>, key: string): int
  {
    if |reqs| == 0 then 0
    else
      var last := reqs[|reqs| - 1];
      Submitted(reqs[..|reqs| - 1], key) + Delta(last, key)
  }

  predicate DisbursedAgainst(reqs: seq<Request>, key: string)
  {
    exists k :: 0 <= k < |reqs| && reqs[k].Disburse? && reqs[k].disbursement.orsNo == key
  }

  /** The amount a request adds to the log's sum for `key`. */
  function Delta(req: Request, key: string): int
  {
    if req.Disburse? && req.disbursement.orsNo == key then req.disbursement.amountDisbursed else 0
  }

  /** One handler adds its own amount, and nothing else, to the log's sum for `key`. */
  lemma ApplyAddsToLog(s: Store, req: Request, key: string)
    requires key != ""
    ensures Disbursements.PriorDisbursed(Apply(s, req).store.disbursements, key)
      == Add(Disbursements.PriorDisbursed(s.disbursements, key), Finite(Delta(req, key)))
  {
    if req.Disburse? {
      var r := req.disbursement;
      var t := Disbursements.CalculateBalanceAndTotal(s.disbursements, r.orsNo, r.amountObligated, r.amountDisbursed);
      if r.orsNo == key {
        Disbursements.PriorDisbursedSameRow(s.disbursements, r, t.balance);
      } else {
        Disbursements.PriorDisbursedOtherRow(s.disbursements, Disbursements.LogRow(r, t.balance), key);
      }
    } else {
      assert Apply(s, req).store.disbursements == s.disbursements;
    }
  }

  /** One more request: if the log summed the earlier submissions, it sums them all. */
  lemma LogSumsStep(reqs: seq<Request>, key: string)
    requires key != "" && |reqs| > 0
    requires Disbursements.PriorDisbursed(Run(EmptyStore, reqs[..|reqs| - 1]).disbursements, key)
      == Finite(Submitted(reqs[..|reqs| - 1], key))
    ensures Disbursements.PriorDisbursed(Run(EmptyStore, reqs).disbursements, key) == Finite(Submitted(reqs, key))
  {
    ApplyAddsToLog(Run(EmptyStore, reqs[..|reqs| - 1]), reqs[|reqs| - 1], key);
  }

  /** Starting from an empty store, the log holds for `key` exactly the sum of the submitted amounts. */
  lemma {:induction false} LogSumsSubmissions(reqs: seq<Request>, key: string)
    requires key != ""
    ensures Disbursements.PriorDisbursed(Run(EmptyStore, reqs).disbursements, key) == Finite(Submitted(reqs, key))
    decreases |reqs|
  {
    if |reqs| > 0 {
      LogSumsSubmissions(reqs[..|reqs| - 1], key);
      LogSumsStep(reqs, key);
    }
  }

  /** A summary row, once there, stays findable by its key. */
  lemma SummaryRowPersists(s: Store, req: Request, key: string)
    requires LookupIndex(s.obligationVsDisbursement, Disbursements.KeyColumn, key).Some?
    ensures LookupIndex(Apply(s, req).store.obligationVsDisbursement, Disbursements.KeyColumn, key).Some?
  {
    if req.Disburse? {
      var r := req.disbursement;
      var t := Disbursements.CalculateBalanceAndTotal(s.disbursements, r.orsNo, r.amountObligated, r.amountDisbursed);
      var summary := s.obligationVsDisbursement;
      match LookupIndex(summary, Disbursements.KeyColumn, r.orsNo)
      case None =>
        LookupAfterAppend(summary, Disbursements.SummaryRow(r, t), Disbursements.KeyColumn, key);
      case Some(i) =>
        var p1 := Patch(summary, i, Disbursements.TotalColumn, Number(t.totalDisbursed));
        LookupAfterPatch(summary, i, Disbursements.TotalColumn, Number(t.totalDisbursed), Disbursements.KeyColumn, key);
        LookupAfterPatch(p1, i, Disbursements.BalanceColumn, Number(t.balance), Disbursements.KeyColumn, key);
    }
  }

  lemma {:induction false} DisbursedKeyIsListed(reqs: seq<Request>, key: string)
    requires key != "" && DisbursedAgainst(reqs, key)
    ensures LookupIndex(Run(EmptyStore, reqs).obligationVsDisbursement, Disbursements.KeyColumn, key).Some?
    decreases |reqs|
  {
    var pre := reqs[..|reqs| - 1];
    var last := reqs[|reqs| - 1];
    if last.Disburse? && last.disbursement.orsNo == key {
      Disbursements.HandleRecordsTotal(Run(EmptyStore, pre), last.disbursement);
    } else {
      var k :| 0 <= k < |reqs| && reqs[k].Disburse? && reqs[k].disbursement.orsNo == key;
      assert pre[k] == reqs[k];
      DisbursedKeyIsListed(pre, key);
      SummaryRowPersists(Run(EmptyStore, pre), last, key);
    }
  }

  /** The headline: after any sequence of submissions from an empty store,
      every ORS number disbursed against has a summary row, and its first
      summary row shows in column D the sum of every amount disbursed against it. */
  lemma SummaryShowsSubmittedTotal(reqs: seq<Request>, key: string)
    requires key != "" && DisbursedAgainst(reqs, key)
    ensures var summary := Run(EmptyStore, reqs).obligationVsDisbursement;
      var i := LookupIndex(summary, Disbursements.KeyColumn, key);
      i.Some? && CellAt(summary[i.value], Disbursements.TotalColumn) == Some(Number(Finite(Submitted(reqs, key))))
  {
    EmptyStoreAgrees();
    RunKeepsTotals(EmptyStore, reqs);
    assert TotalsAgreeFor(Run(EmptyStore, reqs), key);
    LogSumsSubmissions(reqs, key);
    DisbursedKeyIsListed(reqs, key);
  }

  /** Repeated disbursements against a key that already has a summary row never add rows. */
  lemma SummaryRowCountStable(s: Store, r: Disbursements.Request)
    requires LookupIndex(s.obligationVsDisbursement, Disbursements.KeyColumn, r.orsNo).Some?
    ensures |Disbursements.Handle(s, r).store.obligationVsDisbursement| == |s.obligationVsDisbursement|
  {
  }

  // ---------------------------------------------------------------------------
  // Status moves one way

  /** No handler writes "Not Obligated" over an existing summary row: an
      existing row's status is kept or becomes "Obligated", and only new rows
      start as "Not Obligated". */
  lemma StatusOnlyAdvances(s: Store, req: Request)
    ensures var s' := Apply(s, req).store;
      && |s'.recordVsObligation| >= |s.recordVsObligation|
      && (forall j :: 0 <= j < |s.recordVsObligation| ==>
            || Get(s'.recordVsObligation[j], Obligations.StatusColumn) == Get(s.recordVsObligation[j], Obligations.StatusColumn)
            || Get(s'.recordVsObligation[j], Obligations.StatusColumn) == Some(Text(Obligations.Obligated)))
      && (forall j :: |s.recordVsObligation| <= j < |s'.recordVsObligation| ==>
            Get(s'.recordVsObligation[j], Obligations.StatusColumn) == Some(Text(RecordLog.NotObligated)))
  {
    var s' := Apply(s, req).store;
    if req.Intake? && req.record.date.Some? {
      assert s'.recordVsObligation == s.recordVsObligation + [RecordLog.SummaryRow(req.record)];
    }
  }

  // ---------------------------------------------------------------------------
  // Reading back what was written

  /** After a record with a fresh tracking number, the lookup returns the fields just written. */
  lemma RecordLookupRoundTrip(s: Store, r: RecordLog.Request)
    requires r.date.Some? && r.trackingNumber != ""
    requires LookupIndex(s.recordLog, RecordLog.TrackingColumn, r.trackingNumber).None?
    ensures RecordLog.LookupByTrackingNumber(RecordLog.Handle(s, r).store, r.trackingNumber)
      == Response(Ok, Record([Field("payee", Some(Text(r.payee))),
                              Field("nature_of_transaction", Some(Text(r.nature))),
                              Field("allotment_class", Some(Text(r.allotment))),
                              Field("legal_basis", Some(Text(r.legalBasis))),
                              Field("amount", Some(Number(Finite(r.amount))))]))
  {
    LookupAfterAppend(s.recordLog, RecordLog.RecordRow(r), RecordLog.TrackingColumn, r.trackingNumber);
  }

  /** After an obligation with a fresh ORS number, the lookup returns the payee,
      nature and amount obligated just written. */
  lemma ObligationLookupRoundTrip(s: Store, r: Obligations.Request)
    requires Obligations.Handle(s, r).response.status == Ok && r.orsNo != ""
    requires LookupIndex(s.obligations, Obligations.OrsColumn, r.orsNo).None?
    ensures Obligations.LookupByOrsNumber(Obligations.Handle(s, r).store, r.orsNo)
      == Response(Ok, Record([Field("payee", Some(Text(r.payee))),
                              Field("nature_of_transaction", Some(Text(r.nature))),
                              Field("amount_obligated", Some(Number(Finite(r.amountObligated))))]))
  {
    LookupAfterAppend(s.obligations, Obligations.ObligationRow(r), Obligations.OrsColumn, r.orsNo);
  }

  /** A freshly recorded transaction shows in the record-vs-obligation view as
      not obligated, with no date obligated and no days to obligate. */
  lemma NewRecordReadsNotObligated(s: Store, r: RecordLog.Request)
    requires r.date.Some?
    ensures var resp := Summaries.RecordVsObligation(RecordLog.Handle(s, r).store);
      && resp.status == Ok
      && resp.body.Records?
      && var obj := resp.body.rows[|resp.body.rows| - 1];
      && obj[0] == Field("tracking_no", Some(Text(r.trackingNumber)))
      && obj[2] == Field("date_obligated", Some(Empty))
      && obj[5] == Field("days_to_obligate", Some(Empty))
      && obj[6] == Field("status", Some(Text(RecordLog.NotObligated)))
  {
    var s' := RecordLog.Handle(s, r).store;
    var last := |s'.recordVsObligation| - 1;
    assert s'.recordVsObligation[last] == RecordLog.SummaryRow(r);
    assert !BlankRow(Take(s'.recordVsObligation[last], 7)) by {
      assert Take(s'.recordVsObligation[last], 7)[6] != Empty;
    }
  }

  /** After a disbursement, the obligation-vs-disbursement view shows the
      computed total and balance on the key's row. */
  lemma DisbursementReadBack(s: Store, r: Disbursements.Request)
    requires r.orsNo != ""
    ensures var s' := Disbursements.Handle(s, r).store;
      var t := Disbursements.CalculateBalanceAndTotal(s.disbursements, r.orsNo, r.amountObligated, r.amountDisbursed);
      var i := LookupIndex(s'.obligationVsDisbursement, Disbursements.KeyColumn, r.orsNo);
      var resp := Summaries.ObligationVsDisbursement(s');
      && i.Some?
      && resp.status == Ok && resp.body.Records?
      && resp.body.rows[i.value][3] == Field("total_disbursed", Some(Number(t.totalDisbursed)))
      && resp.body.rows[i.value][4] == Field("balance", Some(Number(t.balance)))
  {
    Disbursements.HandleRecordsTotal(s, r);
    var s' := Disbursements.Handle(s, r).store;
    var i := LookupIndex(s'.obligationVsDisbursement, Disbursements.KeyColumn, r.orsNo).value;
    assert !BlankRow(Take(s'.obligationVsDisbursement[i], 5)) by {
      assert Take(s'.obligationVsDisbursement[i], 5)[0] != Empty;
    }
  }

  // ---------------------------------------------------------------------------
  // A worked scenario

  /** The first disbursement against an empty log and summary opens a summary
      row with the amount as total and the rest of the obligation as balance. */
  lemma FirstDisbursement(s: Store, r: Disbursements.Request)
    requires s.disbursements == [] && s.obligationVsDisbursement == []
    ensures Disbursements.Handle(s, r).store.obligationVsDisbursement
      == [[Text(r.orsNo), Text(r.payee), Number(Finite(r.amountObligated)),
           Number(Finite(r.amountDisbursed)), Number(Finite(r.amountObligated - r.amountDisbursed))]]
    ensures r.orsNo != "" ==>
      Disbursements.PriorDisbursed(Disbursements.Handle(s, r).store.disbursements, r.orsNo) == Finite(r.amountDisbursed)
  {
    Disbursements.EmptyLogTotals([], r.orsNo, r.amountObligated, r.amountDisbursed);
    var t := Disbursements.CalculateBalanceAndTotal([], r.orsNo, r.amountObligated, r.amountDisbursed);
    if r.orsNo != "" {
      Disbursements.PriorDisbursedSameRow([], r, t.balance);
      assert [] + [Disbursements.LogRow(r, t.balance)] == Disbursements.Handle(s, r).store.disbursements;
    }
  }

  /** On a one-row summary holding the key, the upsert rewrites D and E of that row. */
  lemma UpsertOneRow(r: Disbursements.Request, t: Disbursements.Totals, b: Cell, c: Cell, d: Cell, e: Cell)
    requires r.orsNo != ""
    ensures Disbursements.UpsertSummary([[Text(r.orsNo), b, c, d, e]], r, t)
      == [[Text(r.orsNo), b, c, Number(t.totalDisbursed), Number(t.balance)]]
  {
    var summary := [[Text(r.orsNo), b, c, d, e]];
    assert Column(summary, Disbursements.KeyColumn) == [Some(Text(r.orsNo))];
    assert Column(summary, Disbursements.KeyColumn)[0] == CellAt(summary[0], 0) == Some(Text(r.orsNo));
    assert ReadColumn(summary, Disbursements.KeyColumn) == Some([Some(Text(r.orsNo))]);
    assert FindIndex([Some(Text(r.orsNo))], r.orsNo) == Some(0);
    var row1 := SetCell(summary[0], Disbursements.TotalColumn, Number(t.totalDisbursed));
    assert row1 == [Text(r.orsNo), b, c, Number(t.totalDisbursed), e];
    var p1 := Patch(summary, 0, Disbursements.TotalColumn, Number(t.totalDisbursed));
    assert p1 == [row1];
    var row2 := SetCell(row1, Disbursements.BalanceColumn, Number(t.balance));
    assert row2 == [Text(r.orsNo), b, c, Number(t.totalDisbursed), Number(t.balance)];
    assert Patch(p1, 0, Disbursements.BalanceColumn, Number(t.balance))
      == [[Text(r.orsNo), b, c, Number(t.totalDisbursed), Number(t.balance)]];
  }

  /** A further disbursement against a key whose log already sums to `total`
      moves the running total up and the balance down by its amount, and the
      key's first summary row shows both. */
  lemma NextDisbursement(s: Store, r: Disbursements.Request, total: int)
    requires r.orsNo != ""
    requires Disbursements.PriorDisbursed(s.disbursements, r.orsNo) == Finite(total)
    ensures var s' := Disbursements.Handle(s, r).store;
      var i := LookupIndex(s'.obligationVsDisbursement, Disbursements.KeyColumn, r.orsNo);
      && Disbursements.PriorDisbursed(s'.disbursements, r.orsNo) == Finite(total + r.amountDisbursed)
      && i.Some?
      && CellAt(s'.obligationVsDisbursement[i.value], Disbursements.TotalColumn)
           == Some(Number(Finite(total + r.amountDisbursed)))
      && CellAt(s'.obligationVsDisbursement[i.value], Disbursements.BalanceColumn)
           == Some(Number(Finite(r.amountObligated - (total + r.amountDisbursed))))
  {
    var t := Disbursements.CalculateBalanceAndTotal(s.disbursements, r.orsNo, r.amountObligated, r.amountDisbursed);
    assert t == Disbursements.Totals(Finite(r.amountObligated - (total + r.amountDisbursed)), Finite(total + r.amountDisbursed));
    Disbursements.HandleRecordsTotal(s, r);
  }

  /** Obligating `n` whole days after the date received on the first matching
      summary row marks that row obligated on that date, after `n` days. */
  lemma ObligateAfterDays(s: Store, r: Obligations.Request, received: int, days: nat)
    requires var i := LookupIndex(s.recordVsObligation, Obligations.SummaryKeyColumn, r.trackingNumber);
      i.Some? && CellAt(s.recordVsObligation[i.value], Obligations.DateReceivedColumn) == Some(Date(received))
    requires r.date == Some(received + days * Obligations.MsPerDay)
    ensures var i := LookupIndex(s.recordVsObligation, Obligations.SummaryKeyColumn, r.trackingNumber).value;
      var out := Obligations.Handle(s, r);
      && out.response.status == Ok
      && |out.store.recordVsObligation| == |s.recordVsObligation|
      && out.store.recordVsObligation[i][Obligations.DateObligatedColumn] == Date(received + days * Obligations.MsPerDay)
      && out.store.recordVsObligation[i][Obligations.DaysColumn] == Number(Finite(days))
      && out.store.recordVsObligation[i][Obligations.StatusColumn] == Text(Obligations.Obligated)
  {
    Obligations.DayDifferenceWholeDays(received, days);
  }

  /** A record for TRK00000001 of 5000.00, obligated under ORS 00000001 three
      days after receipt, then disbursed 2000.00 and 1000.00 on the fifth and
      sixth days: the record shows as obligated after 3 days, and the summary
      shows 2000.00 disbursed with 3000.00 left, then 3000.00 with 2000.00 left. */
  lemma Scenario(received: int)
    ensures var rec := RecordLog.Request(Some(received), "TRK00000001", "Payee", "Supplies", "MOOE", "RA 1", 500000);
      var s1 := RecordLog.Handle(EmptyStore, rec).store;
      var obl := Obligations.Request("TRK00000001", "00000001", Some(received + 3 * Obligations.MsPerDay),
                                     "Payee", "Supplies", "MOOE", "RA 1", 500000, 500000);
      var s2 := Obligations.Handle(s1, obl).store;
      var d1 := Disbursements.Request("00000001", "Payee", "Supplies", 500000, "", Some(received + 5 * Obligations.MsPerDay), 0, 200000);
      var s3 := Disbursements.Handle(s2, d1).store;
      var d2 := Disbursements.Request("00000001", "Payee", "Supplies", 500000, "", Some(received + 6 * Obligations.MsPerDay), 0, 100000);
      var s4 := Disbursements.Handle(s3, d2).store;
      && Obligations.Handle(s1, obl).response.status == Ok
      && |s2.recordVsObligation| == 1 && |s2.recordVsObligation[0]| > Obligations.StatusColumn
      && s2.recordVsObligation[0][Obligations.DaysColumn] == Number(Finite(3))
      && s2.recordVsObligation[0][Obligations.StatusColumn] == Text(Obligations.Obligated)
      && s3.obligationVsDisbursement == [[Text("00000001"), Text("Payee"), Number(Finite(500000)),
                                          Number(Finite(200000)), Number(Finite(300000))]]
      && s4.obligationVsDisbursement == [[Text("00000001"), Text("Payee"), Number(Finite(500000)),
                                          Number(Finite(300000)), Number(Finite(200000))]]
  {
    var rec := RecordLog.Request(Some(received), "TRK00000001", "Payee", "Supplies", "MOOE", "RA 1", 500000);
    var s1 := RecordLog.Handle(EmptyStore, rec).store;
    var obl := Obligations.Request("TRK00000001", "00000001", Some(received + 3 * Obligations.MsPerDay),
                                   "Payee", "Supplies", "MOOE", "RA 1", 500000, 500000);
    assert LookupIndex(s1.recordVsObligation, Obligations.SummaryKeyColumn, obl.trackingNumber) == Some(0) by {
      assert Holds(CellAt(s1.recordVsObligation[0], Obligations.SummaryKeyColumn), obl.trackingNumber);
    }
    ObligateAfterDays(s1, obl, received, 3);
    var s2 := Obligations.Handle(s1, obl).store;
    var d1 := Disbursements.Request("00000001", "Payee", "Supplies", 500000, "", Some(received + 5 * Obligations.MsPerDay), 0, 200000);
    var d2 := Disbursements.Request("00000001", "Payee", "Supplies", 500000, "", Some(received + 6 * Obligations.MsPerDay), 0, 100000);
    TwoDisbursements(s2, d1, d2);
  }

  /** Two disbursements against one key on an empty log and summary: the
      first opens the summary row, the second patches its total and balance. */
  lemma TwoDisbursements(s: Store, d1: Disbursements.Request, d2: Disbursements.Request)
    requires s.disbursements == [] && s.obligationVsDisbursement == []
    requires d1.orsNo != "" && d2.orsNo == d1.orsNo
    ensures var s3 := Disbursements.Handle(s, d1).store;
      var s4 := Disbursements.Handle(s3, d2).store;
      var total := d1.amountDisbursed + d2.amountDisbursed;
      && s3.obligationVsDisbursement
           == [[Text(d1.orsNo), Text(d1.payee), Number(Finite(d1.amountObligated)),
                Number(Finite(d1.amountDisbursed)), Number(Finite(d1.amountObligated - d1.amountDisbursed))]]
      && s4.obligationVsDisbursement
           == [[Text(d1.orsNo), Text(d1.payee), Number(Finite(d1.amountObligated)),
                Number(Finite(total)), Number(Finite(d2.amountObligated - total))]]
  {
    var s3 := Disbursements.Handle(s, d1).store;
    FirstDisbursement(s, d1);
    PatchOneRow(s3, d2, Text(d1.payee), Number(Finite(d1.amountObligated)),
                d1.amountDisbursed, Number(Finite(d1.amountObligated - d1.amountDisbursed)));
  }

  /** A disbursement against the one summary row of its key, whose log sums to `total`. */
  lemma PatchOneRow(s: Store, r: Disbursements.Request, b: Cell, c: Cell, total: int, e: Cell)
    requires r.orsNo != ""
    requires s.obligationVsDisbursement == [[Text(r.orsNo), b, c, Number(Finite(total)), e]]
    requires Disbursements.PriorDisbursed(s.disbursements, r.orsNo) == Finite(total)
    ensures Disbursements.Handle(s, r).store.obligationVsDisbursement
      == [[Text(r.orsNo), b, c, Number(Finite(total + r.amountDisbursed)),
           Number(Finite(r.amountObligated - (total + r.amountDisbursed)))]]
  {
    var t := Disbursements.CalculateBalanceAndTotal(s.disbursements, r.orsNo, r.amountObligated, r.amountDisbursed);
    assert t == Disbursements.Totals(Finite(r.amountObligated - (total + r.amountDisbursed)), Finite(total + r.amountDisbursed));
    UpsertOneRow(r, t, b, c, Number(Finite(total)), e);
  }

  // ---------------------------------------------------------------------------
  // The empty-sheet branches as the platform runs them

  /** On a store with nothing in it, each list and view endpoint takes the
      branch meant to answer 204, and as written that branch ends in the 500
      of its catch. */
  lemma EmptySheetsAnswer500()
    ensures Obligations.OrsNumbers(EmptyStore).status == NoContent
    ensures Obligations.OrsNumbersAsWritten(EmptyStore).status == ServerError
    ensures RecordLog.TrackingNumbers(EmptyStore).status == NoContent
    ensures RecordLog.TrackingNumbersAsWritten(EmptyStore).status == ServerError
    ensures Summaries.RecordVsObligation(EmptyStore).status == NoContent
    ensures Summaries.RecordVsObligationAsWritten(EmptyStore).status == ServerError
    ensures Summaries.ObligationVsDisbursement(EmptyStore).status == NoContent
    ensures Summaries.ObligationVsDisbursementAsWritten(EmptyStore).status == ServerError
  {
  }
}
